=== FILE: README.md ===
# BMDS-UI core, modelled in Dafny

BMDS-UI is the web and desktop front end of the US EPA's Benchmark Dose
Software. A client submits an analysis: datasets, a list of option records
(benchmark response, confidence level, and so on), a prior class and a list of
models. The server validates the submission and hands it to the modelling
engine (`bmds`). This project models the server-side logic that sits between
the two, and proves what it promises:

- **Translation into engine settings** (`bmds_server/analysis/transforms.py`),
  module `Transforms`. `build_model_settings` turns one option record, one
  per-dataset option record and a prior tag into dichotomous or continuous
  engine settings. It uses the fixed prior table and the fixed
  adverse-direction table. `build_dataset` picks a dataset schema from the
  dataset type. `remap_exponential` and `remap_bayesian_exponential` expand a
  request for the generic "Exponential" model into the engine's M3 and M5
  variants; in the Bayesian list the prior weight is split evenly between them.
- **Option validation** (`bmds_server/analysis/validators/options.py`),
  module `OptionsValidator`. The dataset type picks one of three record
  schemas. The batch length is bounded: 1000 records on a desktop install, 6
  when hosted. Every record is checked field by field, and every violation is
  collected.
- **Tabular inputs of the PolyK and Rao-Scott tools**
  (`bmds_ui/analysis/schema.py`), module `TabularInput`. The pasted CSV text is
  stripped, and its runs of commas, tabs and spaces are collapsed to a single
  comma. It is then read as a table, and the header, signs, `has_tumor`
  values and the incidence-versus-n bound are checked. The remaining PolyK
  fields are checked too: the power (default 3, between 0 and 5) and the
  optional duration (above 0, at most 10000).
- **View helpers** (`bmds_ui/analysis/views.py`), module `Views`:
  - the retention text shown on the home page (`days_to_keep`);
  - the analysis lookup that also reports whether the edit password was
    given and correct (`get_analysis_or_404`);
  - the renaming done when an analysis is cloned.

Supporting modules:

- `Results`: `Option`, and `Result` with early return.
- `Engine`: the engine's vocabulary, namely dataset type tags, model-class
  tags, model names, prior classes and the two settings records.
- `Payloads`: the client's dictionaries as records whose keys may be missing.
- `Decimal`: Python's `str(int)` and its inverse. These are used to state
  that the retention text reads back to the number of days.

Python behaviours kept as they are:

- A missing dictionary key is a `KeyError`. In the model it is an error result
  naming the key, in the order the source reads the keys.
- `dataset_type in ModelClass.DICHOTOMOUS` tests whether one string occurs
  inside another, because `ModelClass` is a string enumeration. So the empty
  tag selects the dichotomous schema, along with "D" and "MT". `SelectSchema`
  states this exactly.
- In the Rao-Scott check, the minimum of an empty column is NaN, and
  `NaN < 0` is false. So a table with a header and no rows passes that check.
  In the PolyK check, the set of `has_tumor` values of an empty table is
  empty, so an empty table is rejected.
- `str.strip` removes the characters for which `str.isspace` holds, and the
  model uses that same set.

## Model

| member | source | states |
|---|---|---|
| Transforms.ParsePriorEnum | bmds_server/analysis/transforms.py:14-17 | the three prior tags are recognised exactly. A recognised string is the tag's own value, and any other string names no tag |
| Transforms.Bmd3Prior | bmds_server/analysis/transforms.py:20-24 | each prior tag maps to the engine prior class of the same name, and each engine class comes from exactly one tag |
| Transforms.ParseAdverseDirection | bmds_server/analysis/transforms.py:25-29 | the keys of the direction table are recognised exactly. A code maps to the direction carrying that code, and any other code names no direction |
| Transforms.IsIncreasing | bmds_server/analysis/transforms.py:25-29 | automatic gives no direction, up gives increasing and down gives decreasing, and each outcome comes from exactly that direction |
| Transforms.Require | bmds_server/analysis/transforms.py:38-41 | reading a key succeeds exactly when the key is present and yields its value. A missing key is an error naming that key |
| Transforms.BuildModelSettings | bmds_server/analysis/transforms.py:32-56 | an unknown prior tag fails before the dataset type is looked at. A type outside both families fails with the type named. Success happens exactly on complete input for a known family. The settings shape follows the family, with the dichotomous family checked first. bmr, bmr type, degree and prior are carried over, and alpha is one minus the confidence level. A confidence level in (0.5, 1) gives alpha in (0, 0.5). The continuous tail probability and distribution are carried over, and is_increasing is the direction table's entry for the code sent |
| Transforms.MissingKeyIsFirstAbsent | bmds_server/analysis/transforms.py:35-54 | for a known prior and family, the error is fixed by the input. Dichotomous: the build fails exactly when one of bmr_value, confidence_level, bmr_type, degree is absent, and the error names the first absent one in that order. Continuous: when one of bmr_value, confidence_level, tail_probability, bmr_type, dist_type, degree, adverse_direction is absent, the error names the first absent one in that order. When all are present, the only possible error is the unknown adverse-direction code, named |
| Transforms.DichotomousMissingKey | bmds_server/analysis/transforms.py:36-43 | for a known prior and a dichotomous type, the build fails exactly when a key is absent, and then names the first absent key in read order |
| Transforms.ContinuousMissingKey | bmds_server/analysis/transforms.py:44-54 | for a known prior and a continuous type, an absent key gives an error naming the first absent key in read order. With every key present, a failure can only be the unknown adverse-direction code |
| Transforms.ContinuousSettingsExample | tests/analysis/test_transforms.py:11-31 | the repository's continuous scenario builds continuous settings with bmr 1.5, alpha 0.05, tail probability 0.4, degree 0 and no direction |
| Transforms.DichotomousSettingsExample | tests/analysis/test_transforms.py:33-49 | the repository's dichotomous scenario builds dichotomous settings with bmr 0.15, alpha 0.05 and degree 1 |
| Transforms.SelectDatasetSchema | bmds_server/analysis/transforms.py:59-68 | a dataset without a `dtype` key is a missing-key error naming "dtype". A chosen schema is the one for exactly that type. Every chosen type belongs to a family the settings builder knows, and among accepted types the dichotomous schema is chosen exactly for the dichotomous family. Only "D" selects the dichotomous schema: the cancer tag "DC", which the settings builder accepts, is rejected as an unknown type. Any other type is an error naming it, and no schema exists for it |
| Transforms.FirstIndex | bmds_server/analysis/transforms.py:76 | the position found holds the value, and no earlier position does |
| Transforms.RemapExponential | bmds_server/analysis/transforms.py:72-78 | without "Exponential" the list is unchanged. Otherwise its first occurrence is replaced by M3 followed by M5, the elements before and after it are kept in order, and the list grows by one |
| Transforms.RemapExponentialMultiset | bmds_server/analysis/transforms.py:72-78 | the rewrite removes one "Exponential", adds one M3 and one M5, and keeps every other element |
| Transforms.RemapExponentialIsExpandFirst | bmds_server/analysis/transforms.py:73-77 | the rewrite agrees on every list with an independent recursive definition that expands the first "Exponential" |
| Transforms.RemapExponentialExamples | tests/analysis/test_transforms.py:53-58 | the repository's three remap scenarios |
| Transforms.FirstExponentialEntry | bmds_server/analysis/transforms.py:82-83 | the position found is the first entry naming "Exponential", or no entry names it |
| Transforms.RemapBayesianExponential | bmds_server/analysis/transforms.py:81-91 | without an "Exponential" entry the list is unchanged. Otherwise the first such entry is replaced by an M3 and an M5 entry with no other keys. Each new entry carries half the original prior weight, and the two halves sum to it. All other entries are kept in place |
| Transforms.TotalWeightAppend | bmds_server/analysis/transforms.py:85-89 | prior weight adds up over concatenated lists |
| Transforms.RemapBayesianKeepsTotalWeight | bmds_server/analysis/transforms.py:85-89 | the Bayesian rewrite preserves the total prior weight of the list |
| Transforms.RemapBayesianAgreesWithRemap | bmds_server/analysis/transforms.py:72-91 | the model names after the Bayesian rewrite are the plain rewrite of the model names before it |
| Transforms.RemapBayesianKeepsWellFormed | bmds_server/analysis/transforms.py:84-89 | if no entry keeps "model" or "prior_weight" among its other keys, the rewritten list has none that does either |
| OptionsValidator.StrContainsIsOccurrence | bmds_server/analysis/validators/options.py:53-55 | the containment test used for the model-class tags holds exactly when the needle occurs at some position of the haystack |
| OptionsValidator.OccursAfterFirst | bmds_server/analysis/validators/options.py:53-55 | an occurrence in the tail of a string is exactly an occurrence one position later in the whole string |
| OptionsValidator.OneCharContains | bmds_server/analysis/validators/options.py:53-55 | a one-character tag contains exactly the empty string and itself |
| OptionsValidator.MaxLength | bmds_server/analysis/validators/options.py:14 | the batch bound is 1000 on a desktop install and 6 when hosted, and it is never below 1 |
| OptionsValidator.SelectSchema | bmds_server/analysis/validators/options.py:52-62 | the dichotomous schema is chosen exactly for "", "D" and "MT", the continuous schema exactly for "C", and the nested one exactly for "ND". No schema is chosen for any other tag |
| OptionsValidator.ValidRecordIffNoFieldProblem | bmds_server/analysis/validators/options.py:17-37 | a record satisfies its schema exactly when none of the schema's fields has a problem: missing, outside its enumeration or outside its open interval |
| OptionsValidator.ProblemsAreDeclared | bmds_server/analysis/validators/options.py:17-37 | only a field the schema declares can have a problem, so extra keys of a record are never reported |
| OptionsValidator.PresenceCheck | bmds_server/analysis/validators/options.py:19 | a missing required field yields exactly one "missing" violation naming that record and field, and a present one yields none |
| OptionsValidator.EnumerationCheck | bmds_server/analysis/validators/options.py:18 | an enumerated field yields exactly one violation naming that record and field: "missing" when absent, "not in enumeration" when its value is outside the engine's enumeration. A member of the enumeration yields none |
| OptionsValidator.IntervalCheck | bmds_server/analysis/validators/options.py:20 | a bounded field yields exactly one violation naming that record and field: "missing" when absent, "out of range" when not strictly inside its bounds. A value inside them yields none |
| OptionsValidator.ReportsOneField | bmds_server/analysis/validators/options.py:17-37 | a list that is empty when a field has no problem, and otherwise the one violation naming that field and its problem, reports exactly that field, once |
| OptionsValidator.ReportsFieldsAppend | bmds_server/analysis/validators/options.py:17-37 | joining the reports of two disjoint sets of fields reports exactly their union, and still reports no field twice |
| OptionsValidator.ReportsThreeFields | bmds_server/analysis/validators/options.py:17-37 | the reports on three different fields join into a report on all three, still one entry per field |
| OptionsValidator.ReportsAllDeclared | bmds_server/analysis/validators/options.py:17-37 | a report of every declared field is a report of every field with a problem and of nothing else, each once |
| OptionsValidator.DichotomousViolations | bmds_server/analysis/validators/options.py:17-20 | a record yields no violation exactly when it satisfies the dichotomous schema. The violations are exactly the failing fields, each reported once, naming that record, the field and its problem |
| OptionsValidator.ContinuousViolations | bmds_server/analysis/validators/options.py:23-28 | a record yields no violation exactly when it satisfies the continuous schema. The violations are exactly the failing fields, each reported once, naming that record, the field and its problem |
| OptionsValidator.NestedDichotomousViolations | bmds_server/analysis/validators/options.py:31-37 | a record yields no violation exactly when it satisfies the nested dichotomous schema. The violations are exactly the failing fields, each reported once, naming that record, the field and its problem |
| OptionsValidator.RecordViolations | bmds_server/analysis/validators/options.py:17-37 | a record yields no violation exactly when it satisfies the chosen schema. The violations are exactly the failing fields with their problems, each reported once, all about that record |
| OptionsValidator.ExactIsAbout | bmds_server/analysis/validators/options.py:17-37 | an exact report about one record names only that record |
| OptionsValidator.AllWithinCons | bmds_server/analysis/validators/options.py:40-49 | violations about one record followed by violations about the next records name only records of the batch |
| OptionsValidator.AllValidCons | bmds_server/analysis/validators/options.py:40-49 | every record of a list is valid exactly when its first record and every record of its tail are |
| OptionsValidator.BatchReportsCons | bmds_server/analysis/validators/options.py:40-49 | the exact report on the first record followed by the exact report on the rest is the exact report on the whole batch, with no field of any record reported twice |
| OptionsValidator.BatchViolations | bmds_server/analysis/validators/options.py:40-49 | a list yields no record violation exactly when every record is valid. The violations are exactly the failing fields of every record, each once, with the record's position, the field and its problem |
| OptionsValidator.BatchViolationsNameEveryBadRecord | bmds_server/analysis/validators/options.py:40-49 | every invalid record is named by some violation |
| OptionsValidator.ReportNamesFailingRecord | bmds_server/analysis/validators/options.py:40-49 | an exact batch report names every record that has a failing field |
| OptionsValidator.OptionsViolations | bmds_server/analysis/validators/options.py:40-64 | a batch yields no violation exactly when it has an acceptable length and only valid records. An empty batch yields exactly "too short". An over-long batch yields exactly "too long" with the bound, and no record violations. Otherwise the violations are exactly the failing fields of every record, each once, with its position and problem |
| OptionsValidator.OptionsViolationsNameEveryBadRecord | bmds_server/analysis/validators/options.py:40-64 | for a batch within the length bound, the violation list names every invalid record |
| OptionsValidator.ValidateWith | bmds_server/analysis/validators/options.py:64 | validation against a chosen schema succeeds exactly on an acceptable batch. A failure is a non-empty structured validation error: exactly "too short" for an empty batch, exactly "too long" with the bound for an over-long one, and otherwise exactly the failing fields of every record, each once. It never names a record outside the batch |
| OptionsValidator.ValidateOptions | bmds_server/analysis/validators/options.py:52-64 | succeeds exactly when the tag selects a schema and the batch is acceptable under it. An unknown tag is reported as such, and a known tag can fail only with a validation error |
| OptionsValidator.ValidateOptionsAsWritten | bmds_server/analysis/validators/options.py:52-64 | agrees with the corrected validator on every recognised tag. On an unrecognised tag it fails without reporting the tag, whatever the data |
| OptionsValidator.OneBadRecordFailsBatch | bmds_server/analysis/validators/options.py:52-64 | a single invalid record fails the whole batch, and when the batch is within the length bound the error names that record |
| OptionsValidator.LengthBoundIsInclusive | bmds_server/analysis/validators/options.py:41 | a batch of exactly the maximum length of valid records passes, and one more record makes it fail |
| OptionsValidator.ConfidenceBoundaryExample | bmds_server/analysis/validators/options.py:26-27 | the confidence bound is strict at 0.5 and 0.95 is accepted |
| OptionsValidator.UnknownTagDiscrepancy | bmds_server/analysis/validators/options.py:61-64 | on the tag "X" the code as written fails on the unbound schema name, while the corrected validator reports the unknown tag |
| TabularInput.StripLeading | bmds_ui/analysis/schema.py:54 | the result is a suffix of the input. Everything removed is whitespace, and the result does not start with whitespace |
| TabularInput.StripTrailing | bmds_ui/analysis/schema.py:54 | the result is a prefix of the input. Everything removed is whitespace, and the result does not end with whitespace |
| TabularInput.Strip | bmds_ui/analysis/schema.py:54 | the stripped text is a slice of the input with only whitespace outside it. A non-empty stripped text neither starts nor ends with whitespace |
| TabularInput.CollapseIsCanonical | bmds_ui/analysis/schema.py:53-54 | after the rewrite, separators are only single commas, never adjacent |
| TabularInput.CollapseFirst | bmds_ui/analysis/schema.py:54 | the first character survives the rewrite, or becomes a comma if it was a separator |
| TabularInput.CollapseLast | bmds_ui/analysis/schema.py:54 | the last character survives the rewrite, or becomes a comma if it was a separator |
| TabularInput.CollapseKeepsContent | bmds_ui/analysis/schema.py:53-54 | the rewrite keeps every non-separator character, in order |
| TabularInput.CollapseSwallowsRun | bmds_ui/analysis/schema.py:54 | a run of separators inside a run adds nothing |
| TabularInput.CollapseRun | bmds_ui/analysis/schema.py:54 | a leading run of separators becomes one comma |
| TabularInput.CollapseAppend | bmds_ui/analysis/schema.py:54 | the rewrite of a concatenation splits at a non-separator |
| TabularInput.CollapseOfCanonical | bmds_ui/analysis/schema.py:54 | text already in canonical form is left unchanged |
| TabularInput.CollapseNoLonger | bmds_ui/analysis/schema.py:54 | the rewrite never lengthens the text |
| TabularInput.CollapseSeparators | bmds_ui/analysis/schema.py:54 | the substitution leaves only single commas as separators, keeps every other character in order, and never lengthens the text |
| TabularInput.Normalize | bmds_ui/analysis/schema.py:53-54 | the normalised text is canonical, holds exactly the non-separator characters of the stripped input in order, and is no longer than the input |
| TabularInput.StripOfTrimmed | bmds_ui/analysis/schema.py:54 | stripping text without outer whitespace leaves it unchanged |
| TabularInput.NormalizeIdempotent | bmds_ui/analysis/schema.py:53-54 | normalising the normalised dataset text changes nothing |
| TabularInput.WhitespaceNormalizesToEmpty | bmds_ui/analysis/schema.py:54 | text of whitespace alone normalises to the empty text |
| TabularInput.HasTumorValues | bmds_ui/analysis/schema.py:71 | exactly the `has_tumor` values occurring in the rows |
| TabularInput.CheckPolyKDataset | bmds_ui/analysis/schema.py:47-75 | text over 100000 characters is too large. Otherwise the check succeeds exactly when the normalised text reads as a table with the required columns, non-negative doses and days, and `has_tumor` values exactly {0, 1}. The value kept is the normalised text. The empty-dataset error arises exactly when the reader finds no data, and the columns error exactly when the table reads and its header is wrong. Each later reason arises exactly when its own condition fails and every earlier check passed, in the order: negative dose, negative day, `has_tumor` not exactly {0, 1} |
| TabularInput.HasTumorValuesBinary | bmds_ui/analysis/schema.py:71-73 | the set of distinct `has_tumor` values equals {0, 1} exactly when every value is 0 or 1 and both occur |
| TabularInput.SingleValuedHasTumorRejected | bmds_ui/analysis/schema.py:71-73 | a table whose `has_tumor` column holds one value only is rejected |
| TabularInput.MinNonIncidence | bmds_ui/analysis/schema.py:120 | absent exactly for no rows. Otherwise it is a lower bound of n minus incidence over the rows, attained by some row |
| TabularInput.CheckRaoScottDataset | bmds_ui/analysis/schema.py:93-124 | text over 10000 characters is too large. Otherwise the check succeeds exactly when the normalised text reads as a table with the required columns, non-negative doses and incidences, positive n, and no incidence above its n. The value kept is the normalised text. The empty-dataset error arises exactly when the reader finds no data, and the columns error exactly when the table reads and its header is wrong. Each later reason arises exactly when its own condition fails and every earlier check passed, in the order: negative dose, non-positive n, negative incidence, incidence above n |
| TabularInput.PolyKValueRevalidates | bmds_ui/analysis/schema.py:47-75 | the dataset value the PolyK check keeps passes the same check again, with the same value |
| TabularInput.RaoScottValueRevalidates | bmds_ui/analysis/schema.py:93-124 | the dataset value the Rao-Scott check keeps passes the same check again, with the same value |
| TabularInput.BlankPolyKDatasetIsEmpty | bmds_ui/analysis/schema.py:50-59 | when the reader finds no data in empty text, as `read_csv` does, a PolyK dataset of whitespace alone is rejected as empty |
| TabularInput.BlankRaoScottDatasetIsEmpty | bmds_ui/analysis/schema.py:96-105 | the same for a Rao-Scott dataset of whitespace alone |
| TabularInput.DatasetFieldErrors | bmds_ui/analysis/schema.py:41-75 | the dataset field contributes "missing" when absent, its check's own reason when the check fails, and nothing when it passes |
| TabularInput.NoRepeatedErrorJoin | bmds_ui/analysis/schema.py:41-45 | two error lists without repeats and without a common error join into a list without repeats |
| TabularInput.PolyKErrors | bmds_ui/analysis/schema.py:41-75 | the list is empty exactly when every field passes. Every entry names a field that did fail, as it failed, and no entry is repeated |
| TabularInput.PolyKErrorsSound | bmds_ui/analysis/schema.py:41-75 | every listed error holds of the request: a missing field is absent, a dataset reason is the check's own, and a bound error is a broken bound |
| TabularInput.PolyKErrorsComplete | bmds_ui/analysis/schema.py:41-75 | every failing field of the request is listed |
| TabularInput.ValidatePolyKInput | bmds_ui/analysis/schema.py:41-75 | the request is accepted exactly when the dataset and dose units are given, the dataset passes its check, and the power and duration pass. The accepted request holds the normalised dataset, the dose units, the power (3 when absent) within [0, 5], and the duration within (0, 10000] when given. A rejection lists exactly the failing fields, each once: a missing dataset or dose units by name, the dataset's own reason, and the power and duration bounds |
| Views.DaysToKeep | bmds_ui/analysis/views.py:36-41 | exactly 365 days reads "1 year". Exactly the multiples of 365 above 365 read as a whole number of years, at least 2. Everything else reads as the number of days |
| Views.DaysToKeepReadsBack | bmds_ui/analysis/views.py:36-41 | the retention text reads back to the number of days for every integer, so different periods never share a text |
| Views.GetAnalysisOr404 | bmds_ui/analysis/views.py:189-206 | the lookup succeeds exactly when the key exists and any non-empty password given matches. Failure is "not found". The edit flag holds exactly when a non-empty password was given, and then it is the analysis' own password |
| Views.AppendToInput | bmds_ui/analysis/views.py:265-268 | a missing text counts as empty, and the suffix is appended to it. The other inputs are unchanged |
| Views.CloneAnalysis | bmds_ui/analysis/views.py:259-270 | cloning an unknown key fails. A clone has no id, keeps the password and the other inputs, and has both text inputs present. The name ends in " (clone)", and the description ends in " (cloned from <pk>)" |
| Views.CloneKeepsOriginalText | bmds_ui/analysis/views.py:265-268 | the clone's name and description start with the original texts |
| Decimal.DigitChar | bmds_ui/analysis/views.py:40 | a digit value renders as a digit character |
| Decimal.DigitValue | bmds_ui/analysis/views.py:40 | a character has a digit value exactly when it is a digit, and the value renders back to it |
| Decimal.NatToText | bmds_ui/analysis/views.py:40-41 | the decimal text of a natural number is non-empty and all digits. It starts with "0" exactly for zero, and has no leading zero |
| Decimal.IntToText | bmds_ui/analysis/views.py:40 | the decimal text of an integer is non-empty, starts with a minus sign exactly for negative numbers, and is digits after the sign. Neither the text nor the digits after a minus sign have a leading zero |
| Decimal.ParseNatOfNatToText | bmds_ui/analysis/views.py:40-41 | the decimal text of a natural number parses back to it |
| Decimal.ParseIntOfIntToText | bmds_ui/analysis/views.py:40 | the decimal text of any integer, negative ones included, parses back to it |
| Decimal.ParseIntOfSigned | bmds_ui/analysis/views.py:40 | a minus sign followed by the digits of a number reads back as its negation |
| Decimal.ParseIntOfUnsigned | bmds_ui/analysis/views.py:40 | the digits of a number alone read back as the number |

## Left out

- Django, Celery and the REST layer are not modelled: requests, responses, templates, URLs, `save()`, `renew()`, the CSRF token and the rest of the edit-settings payload. The analysis store is a map from key to analysis.
- UUID validation of the key is not modelled: the key is an arbitrary string.
- `build_dataset` is modelled only up to the schema choice. Parsing and deserialising the dataset happens in the engine, which is not part of this model.
- Reading the CSV is a function parameter `read`. It returns the header and numeric rows, or nothing for the `EmptyDataError` case. The model does not constrain `read`. In particular, it does not itself make `read` find no data in the empty text, as pandas does. The lemmas `BlankPolyKDatasetIsEmpty` and `BlankRaoScottDatasetIsEmpty` state what follows when it does. Non-numeric cells, NaN, quoting and pandas' type inference are not modelled. Nor is pandas' `ParserError` on a malformed CSV, such as a row with more fields than the header (`"dose,day,has_tumor\n1,2,3,4"`). `ParserError` is a `ValueError`, so the source reports it as a validation error on the dataset field with pandas' own message. `read` can only return a table or nothing, so the model cannot express that outcome.
- `calculate` of the PolyK and Rao-Scott inputs, including the sort and the engine's adjustment, is not modelled. The Rao-Scott `species` field is not modelled either, because it is only an enumeration check done by pydantic.
- Floating point is modelled as exact reals. So `1.0 - confidence_level` and the halving of the prior weight are exact, and the test scenarios' approximate comparisons become equalities.
- The engine's enumerations (risk types, distribution types, litter covariate) are a parameter, `EnumDomains`, because their codes are defined in the engine. The string constants in `Engine` are the engine's own values. Most proofs use only that they are distinct, but `SelectSchema` tests tags by substring, so its contract depends on the dichotomous and continuous model-class tags being the one-character strings "D" and "C".
- The adverse-direction codes are -1 for automatic, 1 for up and 0 for down. Only -1 appears in the repository's tests, because the file that defines `AdverseDirection` (validators/datasets.py) is not part of this model.
- `remap_bayesian_exponential` reads `model` from the entries up to the first "Exponential" one, and `prior_weight` only from that entry. A visited entry without `model`, or the matched entry without `prior_weight`, raises `KeyError`. The model gives every entry both keys, so lists whose entries lack them are outside the model. An entry's other keys are a map, and the representation matches a Python dictionary only when that map holds neither key (`Transforms.WellFormedEntry`).
- OptionsValidator.ValidateWith: the violations are structured as kind, record number, field and problem. The model does not reproduce pydantic's message texts or their order within a record. An over-long list is reported as "too long" alone, with no item errors.
- pydantic's type checks are not modelled. The model assumes every present value already has its field's JSON type: `bmr_value` a number, `bootstrap_iterations` an integer, `data` a list of objects, a PolyK `power` a number. A JSON `null` cannot be told apart from a missing key, so it is reported as missing, where pydantic reports a type error (`float_parsing`, `int_from_float`, `float_type`, `list_type`, `model_type`).
- Settings-dependent constants: `max_length` is a function of the desktop flag, and `DAYS_TO_KEEP_ANALYSES` is the argument of `DaysToKeep`.

## Findings

| source | as written | input that shows it | evidently intended | confidence | as-written member | corrected member |
|---|---|---|---|---|---|---|
| bmds_server/analysis/validators/options.py:61-64 | on an unrecognised dataset type the `ValidationError` is constructed but not raised, so the following `pydantic_validate` call reads `schema` before it is bound and fails with `UnboundLocalError` | dataset type "X" with any option list | raise a validation error naming the unknown dataset type | not executed | OptionsValidator.ValidateOptionsAsWritten (shown by OptionsValidator.UnknownTagDiscrepancy) | OptionsValidator.ValidateOptions |

=== FILE: decimal.dfy ===
/** Decimal text of integers, as Python's `str(int)` writes it, with a parser
    that inverts it. */
module Decimal {
  import opened Results

  predicate IsDigit(c: char) {
    '0' <= c <= '9'
  }

  function DigitChar(d: nat): (c: char)
    requires d < 10
    ensures IsDigit(c)
  {
    "0123456789"[d]
  }

  function DigitValue(c: char): (d: Option<nat>)
    ensures d.Some? <==> IsDigit(c)
    ensures d.Some? ==> d.value < 10 && DigitChar(d.value) == c
  {
    if IsDigit(c) then Some(c as int - '0' as int) else None
  }

  /** Digits of `n`, most significant first, without leading zeros. */
  function NatToText(n: nat): (s: string)
    ensures |s| >= 1
    ensures forall i :: 0 <= i < |s| ==> IsDigit(s[i])
    ensures |s| > 1 ==> s[0] != '0'
    ensures s[0] == '0' <==> n == 0
  {
    if n < 10 then [DigitChar(n)] else NatToText(n / 10) + [DigitChar(n % 10)]
  }

  /** `str(n)` for any Python integer: a minus sign before negative numbers. */
  function IntToText(n: int): (s: string)
    ensures |s| >= 1
    ensures s[0] == '-' <==> n < 0
    ensures forall i :: (if n < 0 then 1 else 0) <= i < |s| ==> IsDigit(s[i])
    ensures |s| >= 2 && IsDigit(s[0]) ==> s[0] != '0'
    ensures n < 0 ==> |s| >= 2 && s[1] != '0'
  {
    if n < 0 then "-" + NatToText(-n) else NatToText(n)
  }

  /** The value of a non-empty string of decimal digits. */
  function ParseNat(s: string): Option<nat> {
    if |s| == 0 then None
    else
      var last := DigitValue(s[|s| - 1]);
      if last.None? then None
      else if |s| == 1 then last
      else match ParseNat(s[..|s| - 1])
        case None => None
        case Some(p) => Some(10 * p + last.value)
  }

  /** The value of an optionally signed decimal string. */
  function ParseInt(s: string): Option<int> {
    if |s| > 0 && s[0] == '-' then
      match ParseNat(s[1..])
      case None => None
      case Some(n) => Some(0 - n as int)
    else
      match ParseNat(s)
      case None => None
      case Some(n) => Some(n as int)
  }

  /** Reading back the digits of `n` gives `n`. */
  lemma {:induction false} ParseNatOfNatToText(n: nat)
    ensures ParseNat(NatToText(n)) == Some(n)
  {
    if n >= 10 {
      var s := NatToText(n);
      ParseNatOfNatToText(n / 10);
      assert s[..|s| - 1] == NatToText(n / 10);
      assert s[|s| - 1] == DigitChar(n % 10);
    }
  }

  /** `IntToText` is injective: `ParseInt` recovers every integer. */
  lemma ParseIntOfIntToText(n: int)
    ensures ParseInt(IntToText(n)) == Some(n)
  {
    if n < 0 {
      assert IntToText(n) == "-" + NatToText(-n);
      ParseIntOfSigned(-n);
    } else {
      assert IntToText(n) == NatToText(n);
      ParseIntOfUnsigned(n);
    }
  }

  /** A minus sign followed by the digits of `m` reads back as `-m`. */
  lemma ParseIntOfSigned(m: nat)
    ensures ParseInt("-" + NatToText(m)) == Some(0 - m as int)
  {
    var s := "-" + NatToText(m);
    ParseNatOfNatToText(m);
    assert s[1..] == NatToText(m);
  }

  /** The digits of `m` alone read back as `m`. */
  lemma ParseIntOfUnsigned(m: nat)
    ensures ParseInt(NatToText(m)) == Some(m)
  {
    ParseNatOfNatToText(m);
    assert IsDigit(NatToText(m)[0]);
  }
}

=== FILE: engine.dfy ===
/** Vocabulary of the external modelling engine (`bmds`) that the core
    translates into. The strings below are the engine's constants. Most proofs
    need only that they are distinct, but the option schema choice tests tags
    by substring, so its contract depends on the literal values: the
    dichotomous and continuous model-class tags are the one-character strings
    "D" and "C". */
module Engine {
  import opened Results

  /** Dataset type tags (the engine's `Dtype`). */
  const Dichotomous: string := "D"
  const DichotomousCancer: string := "DC"
  const Continuous: string := "C"
  const ContinuousIndividual: string := "CI"
  const NestedDichotomous: string := "ND"

  /** The engine's `DICHOTOMOUS_DTYPES` and `CONTINUOUS_DTYPES`. */
  const DichotomousDtypes: set<string> := {Dichotomous, DichotomousCancer}
  const ContinuousDtypes: set<string> := {Continuous, ContinuousIndividual}

  /** Model-class tags (the engine's `ModelClass`, a string enumeration). */
  const ModelClassDichotomous: string := "D"
  const ModelClassContinuous: string := "C"
  const ModelClassNestedDichotomous: string := "ND"
  const ModelClassMultiTumor: string := "MT"

  /** Model names (`M_Exponential`, `M_ExponentialM3`, `M_ExponentialM5`). */
  const Exponential: string := "Exponential"
  const ExponentialM3: string := "Exponential-M3"
  const ExponentialM5: string := "Exponential-M5"

  /** The engine's prior classes (`PriorClass`). */
  datatype PriorClass = FrequentistRestricted | FrequentistUnrestricted | Bayesian

  /** The two settings records the engine accepts. Enumerated fields
      (`bmr_type`, `disttype`) hold the integer code the client sent; the engine
      coerces them into its own enumerations. */
  datatype ModelSettings =
    | DichotomousSettings(bmr: real, alpha: real, bmrType: int, degree: int, priors: PriorClass)
    | ContinuousSettings(bmr: real, alpha: real, tailProb: real, bmrType: int, distType: int,
                         degree: int, isIncreasing: Option<bool>, priors: PriorClass)
}

=== FILE: options.dfy ===
/** Validation of the batch of option records a client submits for one
    dataset type: a schema chosen by the type, a length bound chosen by the
    deployment mode, and per-record range checks, all or nothing. */
module OptionsValidator {
  import opened Results
  import opened Payloads
  import Engine

  /** `max_length`: the batch bound of a desktop or of a hosted deployment. */
  function MaxLength(isDesktop: bool): (n: nat)
    ensures n >= 1
    ensures isDesktop ==> n == 1000
    ensures !isDesktop ==> n == 6
  {
    if isDesktop then 1000 else 6
  }

  /** The engine's enumerations, each as the set of codes it accepts. */
  datatype EnumDomains = EnumDomains(
    dichotomousRiskTypes: set<int>,
    continuousRiskTypes: set<int>,
    distTypes: set<int>,
    litterCovariates: set<int>
  )

  /** The three record schemas. */
  datatype OptionSchema = DichotomousOption | ContinuousOption | NestedDichotomousOption

  datatype Problem = Missing | NotInEnumeration | OutOfRange

  /** One entry of the structured validation error. */
  datatype Violation =
    | TooShort
    | TooLong(limit: nat)
    | FieldViolation(index: nat, field: string, problem: Problem)

  datatype OptionsError =
    | ValidationFailed(violations: seq<Violation>)
    | UnknownDatasetType(tag: string)
    | UnboundSchema   // the name `schema` was never bound

  /** `needle` occurs in `hay` starting at position `i`. */
  predicate OccursAt(hay: string, needle: string, i: nat) {
    i + |needle| <= |hay| && hay[i..i + |needle|] == needle
  }

  /** Python's `needle in hay` on strings. */
  function StrContains(hay: string, needle: string): bool
    decreases |hay|
  {
    if |needle| <= |hay| && hay[..|needle|] == needle then true
    else if |hay| == 0 then false
    else StrContains(hay[1..], needle)
  }

  /** `StrContains` is the substring test: `needle` occurs as a contiguous
      slice of `hay` (the empty string occurs in every string). */
  lemma {:induction false} StrContainsIsOccurrence(hay: string, needle: string)
    ensures StrContains(hay, needle) <==> exists i: nat :: OccursAt(hay, needle, i)
    decreases |hay|
  {
    if |needle| <= |hay| && hay[..|needle|] == needle {
      assert OccursAt(hay, needle, 0);
    } else if |hay| == 0 {
    } else {
      StrContainsIsOccurrence(hay[1..], needle);
      if StrContains(hay, needle) {
        var i: nat :| OccursAt(hay[1..], needle, i);
        OccursAfterFirst(hay, needle, i);
      } else {
        forall i: nat | OccursAt(hay, needle, i)
          ensures false
        {
          OccursAfterFirst(hay, needle, i - 1);
        }
      }
    }
  }

  /** An occurrence in `hay` past its first character is an occurrence in the
      tail of `hay`, one position earlier. */
  lemma OccursAfterFirst(hay: string, needle: string, i: nat)
    requires |hay| > 0
    ensures OccursAt(hay[1..], needle, i) <==> OccursAt(hay, needle, i + 1)
  {
    if i + 1 + |needle| <= |hay| {
      assert hay[i + 1..i + 1 + |needle|] == hay[1..][i..i + |needle|];
    }
  }

  /** The schema `validate_options` picks. The first two tests are Python's
      substring test against one-character tags, so the empty tag also picks the
      dichotomous schema. */
  function SelectSchema(datasetType: string): (s: Option<OptionSchema>)
    ensures s == Some(DichotomousOption) <==>
              datasetType in {"", Engine.ModelClassDichotomous, Engine.ModelClassMultiTumor}
    ensures s == Some(ContinuousOption) <==> datasetType == Engine.ModelClassContinuous
    ensures s == Some(NestedDichotomousOption) <==> datasetType == Engine.ModelClassNestedDichotomous
    ensures s.None? <==>
              datasetType !in {"", Engine.ModelClassDichotomous, Engine.ModelClassContinuous,
                               Engine.ModelClassNestedDichotomous, Engine.ModelClassMultiTumor}
  {
    OneCharContains(Engine.ModelClassDichotomous, datasetType);
    OneCharContains(Engine.ModelClassContinuous, datasetType);
    if StrContains(Engine.ModelClassDichotomous, datasetType) then Some(DichotomousOption)
    else if StrContains(Engine.ModelClassContinuous, datasetType) then Some(ContinuousOption)
    else if datasetType == Engine.ModelClassNestedDichotomous then Some(NestedDichotomousOption)
    else if datasetType == Engine.ModelClassMultiTumor then Some(DichotomousOption)
    else None
  }

  /** A one-character string contains exactly the empty string and itself. */
  lemma OneCharContains(hay: string, needle: string)
    requires |hay| == 1
    ensures StrContains(hay, needle) <==> needle == "" || needle == hay
  {
    assert hay[1..] == "";
  }

  predicate InOpenInterval(v: Option<real>, lo: real, hi: real) {
    v.Some? && lo < v.value < hi
  }

  predicate InEnumeration(v: Option<int>, domain: set<int>) {
    v.Some? && v.value in domain
  }

  /** What a valid record of each schema is. */
  predicate ValidRecord(schema: OptionSchema, enums: EnumDomains, rec: OptionRecord) {
    match schema
    case DichotomousOption =>
      && InEnumeration(rec.bmrType, enums.dichotomousRiskTypes)
      && rec.bmrValue.Some?
      && InOpenInterval(rec.confidenceLevel, 0.5, 1.0)
    case ContinuousOption =>
      && InEnumeration(rec.bmrType, enums.continuousRiskTypes)
      && rec.bmrValue.Some?
      && InOpenInterval(rec.tailProbability, 0.0, 1.0)
      && InOpenInterval(rec.confidenceLevel, 0.5, 1.0)
      && InEnumeration(rec.distType, enums.distTypes)
    case NestedDichotomousOption =>
      && InEnumeration(rec.bmrType, enums.dichotomousRiskTypes)
      && rec.bmrValue.Some?
      && InOpenInterval(rec.confidenceLevel, 0.5, 1.0)
      && InEnumeration(rec.litterSpecificCovariate, enums.litterCovariates)
      && rec.bootstrapIterations.Some?
      && rec.bootstrapSeed.Some?
  }

  /** What is wrong with a required field, if anything. */
  function PresenceProblem<T>(v: Option<T>): Option<Problem> {
    if v.Some? then None else Some(Missing)
  }

  /** What is wrong with an enumerated field, if anything. */
  function EnumerationProblem(v: Option<int>, domain: set<int>): Option<Problem> {
    match v
    case None => Some(Missing)
    case Some(c) => if c in domain then None else Some(NotInEnumeration)
  }

  /** What is wrong with a field bounded by an open interval, if anything. */
  function IntervalProblem(v: Option<real>, lo: real, hi: real): Option<Problem> {
    match v
    case None => Some(Missing)
    case Some(x) => if lo < x < hi then None else Some(OutOfRange)
  }

  /** The problem reported for the field named `field` of a record under
      `schema`, field by field as the three option classes declare them;
      `None` for a sound field and for a name the schema does not declare. */
  function FieldProblem(schema: OptionSchema, enums: EnumDomains, rec: OptionRecord, field: string): Option<Problem> {
    match schema
    case DichotomousOption =>
      if field == "bmr_type" then EnumerationProblem(rec.bmrType, enums.dichotomousRiskTypes)
      else if field == "bmr_value" then PresenceProblem(rec.bmrValue)
      else if field == "confidence_level" then IntervalProblem(rec.confidenceLevel, 0.5, 1.0)
      else None
    case ContinuousOption =>
      if field == "bmr_type" then EnumerationProblem(rec.bmrType, enums.continuousRiskTypes)
      else if field == "bmr_value" then PresenceProblem(rec.bmrValue)
      else if field == "tail_probability" then IntervalProblem(rec.tailProbability, 0.0, 1.0)
      else if field == "confidence_level" then IntervalProblem(rec.confidenceLevel, 0.5, 1.0)
      else if field == "dist_type" then EnumerationProblem(rec.distType, enums.distTypes)
      else None
    case NestedDichotomousOption =>
      if field == "bmr_type" then EnumerationProblem(rec.bmrType, enums.dichotomousRiskTypes)
      else if field == "bmr_value" then PresenceProblem(rec.bmrValue)
      else if field == "confidence_level" then IntervalProblem(rec.confidenceLevel, 0.5, 1.0)
      else if field == "litter_specific_covariate" then EnumerationProblem(rec.litterSpecificCovariate, enums.litterCovariates)
      else if field == "bootstrap_iterations" then PresenceProblem(rec.bootstrapIterations)
      else if field == "bootstrap_seed" then PresenceProblem(rec.bootstrapSeed)
      else None
  }

  /** No field of any record is reported twice. */
  predicate OneReportPerField(vs: seq<Violation>) {
    forall i, j :: 0 <= i < j < |vs| && vs[i].FieldViolation? && vs[j].FieldViolation? ==>
      vs[i].index != vs[j].index || vs[i].field != vs[j].field
  }

  /** `vs` reports exactly the failing fields of the record at `index`, each
      once and with its problem. */
  ghost predicate ReportsExactly(vs: seq<Violation>, schema: OptionSchema, enums: EnumDomains, index: nat, rec: OptionRecord) {
    && (forall v :: v in vs <==>
          v.FieldViolation? && v.index == index && FieldProblem(schema, enums, rec, v.field) == Some(v.problem))
    && OneReportPerField(vs)
  }

  /** Every violation in `vs` is about the record at `index`. */
  predicate AllAbout(vs: seq<Violation>, index: nat) {
    forall k :: 0 <= k < |vs| ==> vs[k].FieldViolation? && vs[k].index == index
  }

  function PresenceCheck<T>(index: nat, field: string, v: Option<T>): (vs: seq<Violation>)
    ensures v.None? ==> vs == [FieldViolation(index, field, Missing)]
    ensures v.Some? ==> vs == []
  {
    if v.Some? then [] else [FieldViolation(index, field, Missing)]
  }

  function EnumerationCheck(index: nat, field: string, v: Option<int>, domain: set<int>): (vs: seq<Violation>)
    ensures v.None? ==> vs == [FieldViolation(index, field, Missing)]
    ensures v.Some? && v.value !in domain ==> vs == [FieldViolation(index, field, NotInEnumeration)]
    ensures InEnumeration(v, domain) ==> vs == []
  {
    match v
    case None => [FieldViolation(index, field, Missing)]
    case Some(c) => if c in domain then [] else [FieldViolation(index, field, NotInEnumeration)]
  }

  function IntervalCheck(index: nat, field: string, v: Option<real>, lo: real, hi: real): (vs: seq<Violation>)
    ensures v.None? ==> vs == [FieldViolation(index, field, Missing)]
    ensures v.Some? && !(lo < v.value < hi) ==> vs == [FieldViolation(index, field, OutOfRange)]
    ensures InOpenInterval(v, lo, hi) ==> vs == []
  {
    match v
    case None => [FieldViolation(index, field, Missing)]
    case Some(x) => if lo < x < hi then [] else [FieldViolation(index, field, OutOfRange)]
  }

  /** The fields each option class declares. */
  function DeclaredFields(schema: OptionSchema): set<string> {
    match schema
    case DichotomousOption => {"bmr_type", "bmr_value", "confidence_level"}
    case ContinuousOption => {"bmr_type", "bmr_value", "tail_probability", "confidence_level", "dist_type"}
    case NestedDichotomousOption =>
      {"bmr_type", "bmr_value", "confidence_level", "litter_specific_covariate", "bootstrap_iterations", "bootstrap_seed"}
  }

  /** Only declared fields can have a problem. */
  lemma ProblemsAreDeclared(schema: OptionSchema, enums: EnumDomains, rec: OptionRecord, field: string)
    ensures FieldProblem(schema, enums, rec, field).Some? ==> field in DeclaredFields(schema)
  {
  }

  /** `vs` reports exactly the failing fields among `fields` of the record at
      `index`, each once and with its problem. */
  ghost predicate ReportsFields(vs: seq<Violation>, schema: OptionSchema, enums: EnumDomains, index: nat,
                                rec: OptionRecord, fields: set<string>) {
    && (forall v :: v in vs <==>
          v.FieldViolation? && v.index == index && v.field in fields
          && FieldProblem(schema, enums, rec, v.field) == Some(v.problem))
    && OneReportPerField(vs)
  }

  /** The report on one field: nothing, or its one problem. */
  lemma ReportsOneField(vs: seq<Violation>, schema: OptionSchema, enums: EnumDomains, index: nat,
                        rec: OptionRecord, field: string)
    requires FieldProblem(schema, enums, rec, field).None? ==> vs == []
    requires FieldProblem(schema, enums, rec, field).Some? ==>
               vs == [FieldViolation(index, field, FieldProblem(schema, enums, rec, field).value)]
    ensures ReportsFields(vs, schema, enums, index, rec, {field})
  {
  }

  /** Reports on two disjoint groups of fields join into a report on both. */
  lemma ReportsFieldsAppend(a: seq<Violation>, b: seq<Violation>, schema: OptionSchema, enums: EnumDomains,
                            index: nat, rec: OptionRecord, fa: set<string>, fb: set<string>)
    requires ReportsFields(a, schema, enums, index, rec, fa)
    requires ReportsFields(b, schema, enums, index, rec, fb)
    requires fa !! fb
    ensures ReportsFields(a + b, schema, enums, index, rec, fa + fb)
  {
    var ab := a + b;
    forall i, j | 0 <= i < j < |ab| && ab[i].FieldViolation? && ab[j].FieldViolation?
      ensures ab[i].index != ab[j].index || ab[i].field != ab[j].field
    {
      if j < |a| {
        assert ab[i] == a[i] && ab[j] == a[j];
      } else if |a| <= i {
        assert ab[i] == b[i - |a|] && ab[j] == b[j - |a|];
      } else {
        assert ab[i] == a[i] && a[i] in a;
        assert ab[j] == b[j - |a|] && b[j - |a|] in b;
      }
    }
  }

  /** Reports on three distinct fields join into a report on all three. */
  lemma ReportsThreeFields(a: seq<Violation>, b: seq<Violation>, c: seq<Violation>, schema: OptionSchema,
                           enums: EnumDomains, index: nat, rec: OptionRecord, fa: string, fb: string, fc: string)
    requires ReportsFields(a, schema, enums, index, rec, {fa})
    requires ReportsFields(b, schema, enums, index, rec, {fb})
    requires ReportsFields(c, schema, enums, index, rec, {fc})
    requires fa != fb && fa != fc && fb != fc
    ensures ReportsFields(a + b + c, schema, enums, index, rec, {fa, fb, fc})
  {
    ReportsFieldsAppend(a, b, schema, enums, index, rec, {fa}, {fb});
    ReportsFieldsAppend(a + b, c, schema, enums, index, rec, {fa, fb}, {fc});
    assert {fa, fb} + {fc} == {fa, fb, fc};
  }

  /** A report on every declared field reports exactly the failing fields. */
  lemma ReportsAllDeclared(vs: seq<Violation>, schema: OptionSchema, enums: EnumDomains, index: nat, rec: OptionRecord)
    requires ReportsFields(vs, schema, enums, index, rec, DeclaredFields(schema))
    ensures ReportsExactly(vs, schema, enums, index, rec)
  {
    forall v
      ensures v in vs <==>
                v.FieldViolation? && v.index == index && FieldProblem(schema, enums, rec, v.field) == Some(v.problem)
    {
      if v.FieldViolation? {
        ProblemsAreDeclared(schema, enums, rec, v.field);
      }
    }
  }

  /** The field violations of one record under `DichotomousOptionSchema`. */
  function DichotomousViolations(enums: EnumDomains, index: nat, rec: OptionRecord): (vs: seq<Violation>)
    ensures vs == [] <==> ValidRecord(DichotomousOption, enums, rec)
    ensures ReportsExactly(vs, DichotomousOption, enums, index, rec)
  {
    var s := DichotomousOption;
    var a := EnumerationCheck(index, "bmr_type", rec.bmrType, enums.dichotomousRiskTypes);
    var b := PresenceCheck(index, "bmr_value", rec.bmrValue);
    var c := IntervalCheck(index, "confidence_level", rec.confidenceLevel, 0.5, 1.0);
    ReportsOneField(a, s, enums, index, rec, "bmr_type");
    ReportsOneField(b, s, enums, index, rec, "bmr_value");
    ReportsOneField(c, s, enums, index, rec, "confidence_level");
    ReportsThreeFields(a, b, c, s, enums, index, rec, "bmr_type", "bmr_value", "confidence_level");
    ReportsAllDeclared(a + b + c, s, enums, index, rec);
    a + b + c
  }

  /** The field violations of one record under `ContinuousOptionSchema`. */
  function ContinuousViolations(enums: EnumDomains, index: nat, rec: OptionRecord): (vs: seq<Violation>)
    ensures vs == [] <==> ValidRecord(ContinuousOption, enums, rec)
    ensures ReportsExactly(vs, ContinuousOption, enums, index, rec)
  {
    var s := ContinuousOption;
    var a := EnumerationCheck(index, "bmr_type", rec.bmrType, enums.continuousRiskTypes);
    var b := PresenceCheck(index, "bmr_value", rec.bmrValue);
    var c := IntervalCheck(index, "tail_probability", rec.tailProbability, 0.0, 1.0);
    var d := IntervalCheck(index, "confidence_level", rec.confidenceLevel, 0.5, 1.0);
    var e := EnumerationCheck(index, "dist_type", rec.distType, enums.distTypes);
    ReportsOneField(a, s, enums, index, rec, "bmr_type");
    ReportsOneField(b, s, enums, index, rec, "bmr_value");
    ReportsOneField(c, s, enums, index, rec, "tail_probability");
    ReportsOneField(d, s, enums, index, rec, "confidence_level");
    ReportsOneField(e, s, enums, index, rec, "dist_type");
    ReportsThreeFields(a, b, c, s, enums, index, rec, "bmr_type", "bmr_value", "tail_probability");
    ReportsFieldsAppend(d, e, s, enums, index, rec, {"confidence_level"}, {"dist_type"});
    ReportsFieldsAppend(a + b + c, d + e, s, enums, index, rec,
                        {"bmr_type", "bmr_value", "tail_probability"}, {"confidence_level", "dist_type"});
    assert a + b + c + (d + e) == a + b + c + d + e;
    assert {"bmr_type", "bmr_value", "tail_probability"} + {"confidence_level", "dist_type"} == DeclaredFields(s);
    ReportsAllDeclared(a + b + c + d + e, s, enums, index, rec);
    a + b + c + d + e
  }

  /** The field violations of one record under `NestedDichotomousOptionSchema`. */
  function NestedDichotomousViolations(enums: EnumDomains, index: nat, rec: OptionRecord): (vs: seq<Violation>)
    ensures vs == [] <==> ValidRecord(NestedDichotomousOption, enums, rec)
    ensures ReportsExactly(vs, NestedDichotomousOption, enums, index, rec)
  {
    var s := NestedDichotomousOption;
    var a := EnumerationCheck(index, "bmr_type", rec.bmrType, enums.dichotomousRiskTypes);
    var b := PresenceCheck(index, "bmr_value", rec.bmrValue);
    var c := IntervalCheck(index, "confidence_level", rec.confidenceLevel, 0.5, 1.0);
    var d := EnumerationCheck(index, "litter_specific_covariate", rec.litterSpecificCovariate, enums.litterCovariates);
    var e := PresenceCheck(index, "bootstrap_iterations", rec.bootstrapIterations);
    var f := PresenceCheck(index, "bootstrap_seed", rec.bootstrapSeed);
    ReportsOneField(a, s, enums, index, rec, "bmr_type");
    ReportsOneField(b, s, enums, index, rec, "bmr_value");
    ReportsOneField(c, s, enums, index, rec, "confidence_level");
    ReportsOneField(d, s, enums, index, rec, "litter_specific_covariate");
    ReportsOneField(e, s, enums, index, rec, "bootstrap_iterations");
    ReportsOneField(f, s, enums, index, rec, "bootstrap_seed");
    ReportsThreeFields(a, b, c, s, enums, index, rec, "bmr_type", "bmr_value", "confidence_level");
    ReportsThreeFields(d, e, f, s, enums, index, rec,
                       "litter_specific_covariate", "bootstrap_iterations", "bootstrap_seed");
    ReportsFieldsAppend(a + b + c, d + e + f, s, enums, index, rec,
                        {"bmr_type", "bmr_value", "confidence_level"},
                        {"litter_specific_covariate", "bootstrap_iterations", "bootstrap_seed"});
    assert a + b + c + (d + e + f) == a + b + c + d + e + f;
    assert {"bmr_type", "bmr_value", "confidence_level"}
           + {"litter_specific_covariate", "bootstrap_iterations", "bootstrap_seed"} == DeclaredFields(s);
    ReportsAllDeclared(a + b + c + d + e + f, s, enums, index, rec);
    a + b + c + d + e + f
  }

  /** Reporting exactly the failing fields of one record makes every
      violation about that record. */
  lemma ExactIsAbout(vs: seq<Violation>, schema: OptionSchema, enums: EnumDomains, index: nat, rec: OptionRecord)
    requires ReportsExactly(vs, schema, enums, index, rec)
    ensures AllAbout(vs, index)
  {
    forall k | 0 <= k < |vs|
      ensures vs[k].FieldViolation? && vs[k].index == index
    {
      assert vs[k] in vs;
    }
  }

  /** The violations of the record at `index`, field by field in declaration
      order. */
  function RecordViolations(schema: OptionSchema, enums: EnumDomains, index: nat, rec: OptionRecord)
    : (vs: seq<Violation>)
    ensures vs == [] <==> ValidRecord(schema, enums, rec)
    ensures ReportsExactly(vs, schema, enums, index, rec)
    ensures AllAbout(vs, index)
  {
    var vs := match schema
      case DichotomousOption => DichotomousViolations(enums, index, rec)
      case ContinuousOption => ContinuousViolations(enums, index, rec)
      case NestedDichotomousOption => NestedDichotomousViolations(enums, index, rec);
    ExactIsAbout(vs, schema, enums, index, rec);
    vs
  }

  /** The schema's acceptance and its per-field error table agree: a record is
      valid exactly when none of its fields has a problem. */
  lemma ValidRecordIffNoFieldProblem(schema: OptionSchema, enums: EnumDomains, rec: OptionRecord)
    ensures ValidRecord(schema, enums, rec) <==> forall f :: FieldProblem(schema, enums, rec, f).None?
  {
    var vs := RecordViolations(schema, enums, 0, rec);
    if !ValidRecord(schema, enums, rec) {
      assert vs[0] in vs;
    }
  }

  /** Every violation in `vs` is about a record numbered in `[lo, hi)`. */
  predicate AllWithin(vs: seq<Violation>, lo: nat, hi: nat) {
    forall k :: 0 <= k < |vs| ==> vs[k].FieldViolation? && lo <= vs[k].index < hi
  }

  /** Violations about record `start` followed by violations about the next
      `n - 1` records are about the `n` records from `start`. */
  lemma AllWithinCons(here: seq<Violation>, rest: seq<Violation>, start: nat, n: nat)
    requires AllAbout(here, start) && AllWithin(rest, start + 1, start + n)
    requires n >= 1
    ensures AllWithin(here + rest, start, start + n)
  {
    forall k | 0 <= k < |here + rest|
      ensures (here + rest)[k].FieldViolation? && start <= (here + rest)[k].index < start + n
    {
      if k >= |here| {
        assert (here + rest)[k] == rest[k - |here|];
      }
    }
  }

  /** `vs` reports exactly the failing fields of every record of `recs`, the
      first numbered `start`, each once and with its problem. */
  ghost predicate BatchReportsExactly(vs: seq<Violation>, schema: OptionSchema, enums: EnumDomains,
                                      recs: seq<OptionRecord>, start: nat) {
    && (forall v :: v in vs <==>
          v.FieldViolation? && start <= v.index < start + |recs|
          && FieldProblem(schema, enums, recs[v.index - start], v.field) == Some(v.problem))
    && OneReportPerField(vs)
  }

  /** The exact report on the first record followed by the exact report on the
      rest is the exact report on the batch. */
  lemma BatchReportsCons(here: seq<Violation>, rest: seq<Violation>, schema: OptionSchema, enums: EnumDomains,
                         recs: seq<OptionRecord>, start: nat)
    requires |recs| >= 1
    requires ReportsExactly(here, schema, enums, start, recs[0])
    requires BatchReportsExactly(rest, schema, enums, recs[1..], start + 1)
    ensures BatchReportsExactly(here + rest, schema, enums, recs, start)
  {
    var vs := here + rest;
    forall v
      ensures v in vs <==>
                v.FieldViolation? && start <= v.index < start + |recs|
                && FieldProblem(schema, enums, recs[v.index - start], v.field) == Some(v.problem)
    {
      if v.FieldViolation? && start + 1 <= v.index < start + |recs| {
        assert recs[1..][v.index - (start + 1)] == recs[v.index - start];
      }
    }
    forall i, j | 0 <= i < j < |vs| && vs[i].FieldViolation? && vs[j].FieldViolation?
      ensures vs[i].index != vs[j].index || vs[i].field != vs[j].field
    {
      if j < |here| {
        assert vs[i] == here[i] && vs[j] == here[j];
      } else if |here| <= i {
        assert vs[i] == rest[i - |here|] && vs[j] == rest[j - |here|];
      } else {
        assert vs[i] == here[i] && here[i] in here;
        assert vs[j] == rest[j - |here|] && rest[j - |here|] in rest;
      }
    }
  }

  /** Every record of a non-empty list is valid exactly when its first record
      and every record of its tail are. */
  lemma AllValidCons(schema: OptionSchema, enums: EnumDomains, recs: seq<OptionRecord>)
    requires |recs| >= 1
    ensures (forall j :: 0 <= j < |recs| ==> ValidRecord(schema, enums, recs[j])) <==>
              ValidRecord(schema, enums, recs[0])
              && forall j :: 0 <= j < |recs[1..]| ==> ValidRecord(schema, enums, recs[1..][j])
  {
    assert forall j :: 1 <= j < |recs| ==> recs[j] == recs[1..][j - 1];
  }

  /** The violations of every record of `recs`, the first numbered `start`. */
  function BatchViolations(schema: OptionSchema, enums: EnumDomains, recs: seq<OptionRecord>, start: nat)
    : (vs: seq<Violation>)
    ensures vs == [] <==> forall j :: 0 <= j < |recs| ==> ValidRecord(schema, enums, recs[j])
    ensures AllWithin(vs, start, start + |recs|)
    ensures BatchReportsExactly(vs, schema, enums, recs, start)
    decreases |recs|
  {
    if |recs| == 0 then []
    else
      var here := RecordViolations(schema, enums, start, recs[0]);
      var rest := BatchViolations(schema, enums, recs[1..], start + 1);
      AllValidCons(schema, enums, recs);
      AllWithinCons(here, rest, start, |recs|);
      BatchReportsCons(here, rest, schema, enums, recs, start);
      here + rest
  }

  /** Some violation in `vs` is about the record at `index`. */
  predicate Names(vs: seq<Violation>, index: nat) {
    exists k :: 0 <= k < |vs| && vs[k].FieldViolation? && vs[k].index == index
  }

  /** Every invalid record is named by at least one violation: the one about
      any of its failing fields. */
  lemma BatchViolationsNameEveryBadRecord(schema: OptionSchema, enums: EnumDomains,
                                          recs: seq<OptionRecord>, start: nat, j: nat)
    requires j < |recs| && !ValidRecord(schema, enums, recs[j])
    ensures Names(BatchViolations(schema, enums, recs, start), start + j)
  {
    ValidRecordIffNoFieldProblem(schema, enums, recs[j]);
    var f :| FieldProblem(schema, enums, recs[j], f).Some?;
    ReportNamesFailingRecord(BatchViolations(schema, enums, recs, start), schema, enums, recs, start, j, f);
  }

  /** An exact batch report names every record with a failing field. */
  lemma ReportNamesFailingRecord(vs: seq<Violation>, schema: OptionSchema, enums: EnumDomains,
                                 recs: seq<OptionRecord>, start: nat, j: nat, f: string)
    requires BatchReportsExactly(vs, schema, enums, recs, start)
    requires j < |recs| && FieldProblem(schema, enums, recs[j], f).Some?
    ensures Names(vs, start + j)
  {
    var v := FieldViolation(start + j, f, FieldProblem(schema, enums, recs[j], f).value);
    assert v in vs;
    var k :| 0 <= k < |vs| && vs[k] == v;
  }

  /** A batch the schema accepts: `min_length=1`, `max_length` and valid
      records. */
  predicate ValidBatch(schema: OptionSchema, enums: EnumDomains, isDesktop: bool, data: seq<OptionRecord>) {
    && 1 <= |data| <= MaxLength(isDesktop)
    && forall j :: 0 <= j < |data| ==> ValidRecord(schema, enums, data[j])
  }

  /** Every field violation in `vs` is about a record numbered below `n`. */
  predicate AllBelow(vs: seq<Violation>, n: nat) {
    forall k :: 0 <= k < |vs| && vs[k].FieldViolation? ==> vs[k].index < n
  }

  /** Every violation of a batch. A list longer than the bound is rejected as
      too long alone: the validator stops at the bound and drops whatever item
      errors it had gathered. An empty list is too short. Otherwise the
      violations are those of the records, in order. */
  function OptionsViolations(schema: OptionSchema, enums: EnumDomains, isDesktop: bool, data: seq<OptionRecord>)
    : (vs: seq<Violation>)
    ensures vs == [] <==> ValidBatch(schema, enums, isDesktop, data)
    ensures |data| == 0 ==> vs == [TooShort]
    ensures |data| > MaxLength(isDesktop) ==> vs == [TooLong(MaxLength(isDesktop))]
    ensures 1 <= |data| <= MaxLength(isDesktop) ==> AllWithin(vs, 0, |data|)
    ensures 1 <= |data| <= MaxLength(isDesktop) ==> BatchReportsExactly(vs, schema, enums, data, 0)
  {
    if |data| == 0 then [TooShort]
    else if |data| > MaxLength(isDesktop) then [TooLong(MaxLength(isDesktop))]
    else BatchViolations(schema, enums, data, 0)
  }

  /** Within the length bound, the list names every invalid record of the
      batch. (Beyond it, the list is exactly "too long".) */
  lemma OptionsViolationsNameEveryBadRecord(schema: OptionSchema, enums: EnumDomains, isDesktop: bool,
                                            data: seq<OptionRecord>, j: nat)
    requires |data| <= MaxLength(isDesktop)
    requires j < |data| && !ValidRecord(schema, enums, data[j])
    ensures Names(OptionsViolations(schema, enums, isDesktop, data), j)
  {
    BatchViolationsNameEveryBadRecord(schema, enums, data, 0, j);
  }

  /** Validation of `data` against the schema `schema`, once chosen. */
  function ValidateWith(schema: OptionSchema, enums: EnumDomains, isDesktop: bool, data: seq<OptionRecord>)
    : (r: Result<(), OptionsError>)
    ensures r.Ok? <==> ValidBatch(schema, enums, isDesktop, data)
    ensures r.Err? ==> r.error.ValidationFailed? && |r.error.violations| > 0
    ensures |data| == 0 ==> r == Err(ValidationFailed([TooShort]))
    ensures |data| > MaxLength(isDesktop) ==> r == Err(ValidationFailed([TooLong(MaxLength(isDesktop))]))
    ensures r.Err? ==> AllBelow(r.error.violations, |data|)
    ensures r.Err? && 1 <= |data| <= MaxLength(isDesktop) ==>
              BatchReportsExactly(r.error.violations, schema, enums, data, 0)
  {
    var vs := OptionsViolations(schema, enums, isDesktop, data);
    if vs == [] then Ok(()) else Err(ValidationFailed(vs))
  }

  /** `validate_options` as written: an unrecognised tag builds a
      `ValidationError` without raising it, and the validation that follows
      fails on the unbound name `schema`. */
  function ValidateOptionsAsWritten(enums: EnumDomains, isDesktop: bool, datasetType: string,
                                    data: seq<OptionRecord>): (r: Result<(), OptionsError>)
    // a recognised tag behaves as intended
    ensures SelectSchema(datasetType).Some? ==> r == ValidateOptions(enums, isDesktop, datasetType, data)
    // an unrecognised tag never reports itself, whatever the data
    ensures SelectSchema(datasetType).None? ==> r.Err? && !r.error.UnknownDatasetType? && !r.error.ValidationFailed?
  {
    match SelectSchema(datasetType)
    case None => Err(UnboundSchema)
    case Some(schema) => ValidateWith(schema, enums, isDesktop, data)
  }

  /** `validate_options` as intended: an unrecognised tag is reported as such. */
  function ValidateOptions(enums: EnumDomains, isDesktop: bool, datasetType: string,
                           data: seq<OptionRecord>): (r: Result<(), OptionsError>)
    ensures r.Ok? <==> SelectSchema(datasetType).Some?
                       && ValidBatch(SelectSchema(datasetType).value, enums, isDesktop, data)
    ensures SelectSchema(datasetType).None? ==> r == Err(UnknownDatasetType(datasetType))
    ensures SelectSchema(datasetType).Some? && r.Err? ==> r.error.ValidationFailed?
  {
    match SelectSchema(datasetType)
    case None => Err(UnknownDatasetType(datasetType))
    case Some(schema) => ValidateWith(schema, enums, isDesktop, data)
  }

  /** All or nothing: one invalid record fails the whole batch, and, within
      the length bound, the error names it. */
  lemma OneBadRecordFailsBatch(enums: EnumDomains, isDesktop: bool, datasetType: string,
                               data: seq<OptionRecord>, j: nat)
    requires SelectSchema(datasetType).Some?
    requires j < |data| && !ValidRecord(SelectSchema(datasetType).value, enums, data[j])
    ensures ValidateOptions(enums, isDesktop, datasetType, data).Err?
    ensures |data| <= MaxLength(isDesktop) ==>
              Names(ValidateOptions(enums, isDesktop, datasetType, data).error.violations, j)
  {
    var schema := SelectSchema(datasetType).value;
    if |data| <= MaxLength(isDesktop) {
      OptionsViolationsNameEveryBadRecord(schema, enums, isDesktop, data, j);
      assert ValidateOptions(enums, isDesktop, datasetType, data).error.violations
          == OptionsViolations(schema, enums, isDesktop, data);
    }
  }

  /** The length bound is inclusive: a batch of exactly `max_length` valid
      records passes and one more fails. */
  lemma LengthBoundIsInclusive(schema: OptionSchema, enums: EnumDomains, isDesktop: bool,
                               data: seq<OptionRecord>, extra: OptionRecord)
    requires |data| == MaxLength(isDesktop)
    requires forall j :: 0 <= j < |data| ==> ValidRecord(schema, enums, data[j])
    ensures ValidateWith(schema, enums, isDesktop, data).Ok?
    ensures ValidateWith(schema, enums, isDesktop, data + [extra]).Err?
  {
  }

  /** The confidence level's lower end is excluded: 0.5 fails and 0.95 passes. */
  lemma ConfidenceBoundaryExample(enums: EnumDomains, riskType: int, distType: int)
    requires riskType in enums.continuousRiskTypes && distType in enums.distTypes
    ensures !ValidRecord(ContinuousOption, enums,
                         OptionRecord(Some(riskType), Some(1.0), Some(0.5), Some(0.4), Some(distType), None, None, None))
    ensures ValidRecord(ContinuousOption, enums,
                        OptionRecord(Some(riskType), Some(1.0), Some(0.95), Some(0.4), Some(distType), None, None, None))
  {
  }

  /** The discrepancy: for a tag no schema matches, the code as written fails
      with the unbound name instead of the validation error it built. */
  lemma UnknownTagDiscrepancy(enums: EnumDomains, isDesktop: bool, data: seq<OptionRecord>)
    ensures ValidateOptionsAsWritten(enums, isDesktop, "X", data) == Err(UnboundSchema)
    ensures ValidateOptions(enums, isDesktop, "X", data) == Err(UnknownDatasetType("X"))
  {
  }
}

=== FILE: payloads.dfy ===
/** The dictionaries the client sends, as records whose every key may be
    missing. A missing key is `None`; reading it is a `KeyError` in the builder
    and a "missing field" violation in the validator. */
module Payloads {
  import opened Results

  /** One entry of the `options` list. Enumerated fields are the integer codes
      sent by the client. Keys that no schema reads are not represented. */
  datatype OptionRecord = OptionRecord(
    bmrType: Option<int>,
    bmrValue: Option<real>,
    confidenceLevel: Option<real>,
    tailProbability: Option<real>,
    distType: Option<int>,
    litterSpecificCovariate: Option<int>,
    bootstrapIterations: Option<int>,
    bootstrapSeed: Option<int>
  )

  /** Per-dataset options: the polynomial degree and, for continuous data, the
      adverse-direction code. */
  datatype DatasetOptions = DatasetOptions(degree: Option<int>, adverseDirection: Option<int>)
}

=== FILE: results.dfy ===
/** Failure-compatible wrappers used throughout the model: `Option` for a value
    that may be absent (a missing dictionary key, a `None`), and `Result` for an
    operation that either succeeds or raises one of the source's exceptions. */
module Results {

  datatype Option<+T> = None | Some(value: T)

  datatype Result<+T, +E> = Ok(value: T) | Err(error: E) {

    predicate IsFailure() {
      Err?
    }

    function PropagateFailure<U>(): Result<U, E>
      requires Err?
    {
      Err(error)
    }

    function Extract(): T
      requires Ok?
    {
      value
    }
  }
}

=== FILE: schema.dfy ===
/** The input validators of the PolyK and Rao-Scott tools: a cap on the raw
    text, separator normalisation, then a header check and per-row checks on the
    table read from the normalised text. Reading CSV text into a table is the
    parameter `read`; it answers `None` where the CSV reader finds no data. */
module TabularInput {
  import opened Results

  const PolyKMaxChars: nat := 100000
  const RaoScottMaxChars: nat := 10000

  const PolyKColumns: seq<string> := ["dose", "day", "has_tumor"]
  const RaoScottColumns: seq<string> := ["dose", "n", "incidence"]

  /** Python's `str.isspace`: the characters `str.strip()` removes. */
  predicate IsWhitespace(c: char) {
    || ('\t' <= c <= '\r')
    || ('\U{1c}' <= c <= '\U{1f}')
    || c == ' ' || c == '\U{85}' || c == '\U{a0}' || c == '\U{1680}'
    || ('\U{2000}' <= c <= '\U{200a}')
    || c == '\U{2028}' || c == '\U{2029}' || c == '\U{202f}' || c == '\U{205f}' || c == '\U{3000}'
  }

  /** The character class `[,\t ]` of the separator pattern. */
  predicate IsSeparator(c: char) {
    c == ',' || c == '\t' || c == ' '
  }

  function StripLeading(s: string): (r: string)
    ensures |r| <= |s| && r == s[|s| - |r|..]
    ensures forall i :: 0 <= i < |s| - |r| ==> IsWhitespace(s[i])
    ensures |r| > 0 ==> !IsWhitespace(r[0])
  {
    if |s| > 0 && IsWhitespace(s[0]) then StripLeading(s[1..]) else s
  }

  function StripTrailing(s: string): (r: string)
    ensures |r| <= |s| && r == s[..|r|]
    ensures forall i :: |r| <= i < |s| ==> IsWhitespace(s[i])
    ensures |r| > 0 ==> !IsWhitespace(r[|r| - 1])
  {
    if |s| > 0 && IsWhitespace(s[|s| - 1]) then StripTrailing(s[..|s| - 1]) else s
  }

  /** Cutting `s` to `s[i..j]` removes whitespace only. */
  predicate WhitespaceOutside(s: string, i: nat, j: nat) {
    && i <= j <= |s|
    && (forall k :: 0 <= k < i ==> IsWhitespace(s[k]))
    && (forall k :: j <= k < |s| ==> IsWhitespace(s[k]))
  }

  /** `str.strip()`: a slice of `s` that neither starts nor ends with
      whitespace, all of whose removed characters are whitespace. */
  function Strip(s: string): (r: string)
    ensures |r| > 0 ==> !IsWhitespace(r[0]) && !IsWhitespace(r[|r| - 1])
    ensures exists i: nat, j: nat :: WhitespaceOutside(s, i, j) && r == s[i..j]
  {
    var t := StripLeading(s);
    var r := StripTrailing(t);
    var i := |s| - |t|;
    assert WhitespaceOutside(s, i, i + |r|) && r == s[i..i + |r|] by {
      assert forall k :: i + |r| <= k < |s| ==> s[k] == t[k - i];
    }
    r
  }

  /** No tab or space, and no two separators side by side: the shape the
      separator rewrite produces. */
  predicate Canonical(s: string) {
    && (forall i :: 0 <= i < |s| ==> s[i] != '\t' && s[i] != ' ')
    && (forall i :: 0 <= i < |s| - 1 ==> !(IsSeparator(s[i]) && IsSeparator(s[i + 1])))
  }

  /** One left-to-right pass of the rewrite. `inRun` says that the previous
      character was a separator, already written out as a comma. */
  function CollapseFrom(s: string, inRun: bool): string {
    if |s| == 0 then ""
    else if !IsSeparator(s[0]) then [s[0]] + CollapseFrom(s[1..], false)
    else if inRun then CollapseFrom(s[1..], true)
    else "," + CollapseFrom(s[1..], true)
  }

  /** `re.sub(r"[,\t ]+", ",", s)`: every maximal run of separators becomes one
      comma; every other character is kept, in order. */
  function CollapseSeparators(s: string): (r: string)
    ensures Canonical(r)
    ensures Kept(r) == Kept(s)
    ensures |r| <= |s|
  {
    CollapseIsCanonical(s, false);
    CollapseKeepsContent(s, false);
    CollapseNoLonger(s, false);
    CollapseFrom(s, false)
  }

  /** The text the validators return and the table is read from: the stripped
      text, separators collapsed, nothing else changed, never longer. */
  function Normalize(s: string): (r: string)
    ensures Canonical(r)
    ensures Kept(r) == Kept(Strip(s))
    ensures |r| <= |s|
  {
    CollapseSeparators(Strip(s))
  }

  /** Text of whitespace alone normalises to the empty text. */
  lemma WhitespaceNormalizesToEmpty(s: string)
    requires forall k :: 0 <= k < |s| ==> IsWhitespace(s[k])
    ensures Normalize(s) == ""
  {
    var r := Strip(s);
    assert |r| == 0;
    assert CollapseFrom(r, false) == "";
  }

  /** The rewrite never lengthens the text. */
  lemma {:induction false} CollapseNoLonger(s: string, inRun: bool)
    ensures |CollapseFrom(s, inRun)| <= |s|
  {
    if |s| > 0 {
      CollapseNoLonger(s[1..], false);
      CollapseNoLonger(s[1..], true);
    }
  }

  /** The rewrite leaves no tab, no space and no two separators in a row, and
      inside a run it writes no further separator first. */
  lemma {:induction false} CollapseIsCanonical(s: string, inRun: bool)
    ensures Canonical(CollapseFrom(s, inRun))
    ensures inRun && |CollapseFrom(s, inRun)| > 0 ==> !IsSeparator(CollapseFrom(s, inRun)[0])
  {
    if |s| > 0 {
      var inRun' := IsSeparator(s[0]);
      CollapseIsCanonical(s[1..], inRun');
    }
  }

  /** The first character of the rewrite: a comma for a leading run, otherwise
      the first character itself. */
  lemma CollapseFirst(s: string)
    requires |s| > 0
    ensures |CollapseSeparators(s)| > 0
    ensures CollapseSeparators(s)[0] == if IsSeparator(s[0]) then ',' else s[0]
  {
  }

  /** The last character of the rewrite: a comma for a trailing run, otherwise
      the last character itself. */
  lemma {:induction false} CollapseLast(s: string, inRun: bool)
    requires |s| > 0
    requires IsSeparator(s[|s| - 1]) ==> !inRun || exists i :: 0 <= i < |s| && !IsSeparator(s[i])
    ensures |CollapseFrom(s, inRun)| > 0
    ensures var r := CollapseFrom(s, inRun);
            r[|r| - 1] == if IsSeparator(s[|s| - 1]) then ',' else s[|s| - 1]
  {
    if |s| > 1 {
      var t := s[1..];
      assert t[|t| - 1] == s[|s| - 1];
      if exists i :: 0 <= i < |s| && !IsSeparator(s[i]) {
        var i :| 0 <= i < |s| && !IsSeparator(s[i]);
        if i > 0 {
          assert t[i - 1] == s[i];
        }
        CollapseLast(t, IsSeparator(s[0]));
      } else {
        assert forall i :: 0 <= i < |t| ==> IsSeparator(t[i]) by {
          forall i | 0 <= i < |t| ensures IsSeparator(t[i]) {
            assert t[i] == s[i + 1];
          }
        }
        CollapseSwallowsRun(t, "");
        assert t + "" == t;
      }
    }
  }

  /** The characters of `s` that are not separators, in order. */
  function Kept(s: string): string {
    if |s| == 0 then ""
    else if IsSeparator(s[0]) then Kept(s[1..])
    else [s[0]] + Kept(s[1..])
  }

  /** The rewrite drops or adds nothing but separators. */
  lemma {:induction false} CollapseKeepsContent(s: string, inRun: bool)
    ensures Kept(CollapseFrom(s, inRun)) == Kept(s)
  {
    if |s| > 0 {
      CollapseKeepsContent(s[1..], IsSeparator(s[0]));
      var r := CollapseFrom(s, inRun);
      if IsSeparator(s[0]) && !inRun {
        assert r[1..] == CollapseFrom(s[1..], true);
      } else if !IsSeparator(s[0]) {
        assert r[1..] == CollapseFrom(s[1..], false);
      }
    }
  }

  /** Inside a run, further separators are swallowed. */
  lemma {:induction false} CollapseSwallowsRun(run: string, b: string)
    requires forall i :: 0 <= i < |run| ==> IsSeparator(run[i])
    ensures CollapseFrom(run + b, true) == CollapseFrom(b, true)
  {
    if |run| == 0 {
      assert run + b == b;
    } else {
      assert (run + b)[1..] == run[1..] + b;
      CollapseSwallowsRun(run[1..], b);
    }
  }

  /** A run of separators followed by text that does not start with one
      becomes a single comma. */
  lemma CollapseRun(run: string, b: string)
    requires |run| > 0 && forall i :: 0 <= i < |run| ==> IsSeparator(run[i])
    requires |b| == 0 || !IsSeparator(b[0])
    ensures CollapseSeparators(run + b) == "," + CollapseSeparators(b)
  {
    assert (run + b)[1..] == run[1..] + b;
    CollapseSwallowsRun(run[1..], b);
  }

  /** Text that does not end in a separator is rewritten independently of
      what follows it: the rewrite works run by run. */
  lemma {:induction false} CollapseAppend(a: string, b: string, inRun: bool)
    requires |a| > 0 && !IsSeparator(a[|a| - 1])
    ensures CollapseFrom(a + b, inRun) == CollapseFrom(a, inRun) + CollapseSeparators(b)
  {
    assert (a + b)[1..] == a[1..] + b;
    if |a| == 1 {
      assert a[1..] + b == b;
    } else {
      assert a[1..][|a| - 2] == a[|a| - 1];
      CollapseAppend(a[1..], b, IsSeparator(a[0]));
    }
  }

  /** Canonical text is left as it is. */
  lemma {:induction false} CollapseOfCanonical(s: string, inRun: bool)
    requires Canonical(s)
    requires inRun && |s| > 0 ==> !IsSeparator(s[0])
    ensures CollapseFrom(s, inRun) == s
  {
    if |s| > 0 {
      assert Canonical(s[1..]);
      CollapseOfCanonical(s[1..], IsSeparator(s[0]));
    }
  }

  lemma StripOfTrimmed(s: string)
    requires |s| > 0 ==> !IsWhitespace(s[0]) && !IsWhitespace(s[|s| - 1])
    ensures Strip(s) == s
  {
  }

  /** Normalising twice is normalising once. */
  lemma NormalizeIdempotent(s: string)
    ensures Normalize(Normalize(s)) == Normalize(s)
  {
    var t := Strip(s);
    var r := Normalize(s);
    CollapseIsCanonical(t, false);
    if |t| > 0 {
      CollapseFirst(t);
      CollapseLast(t, false);
    }
    StripOfTrimmed(r);
    CollapseOfCanonical(r, false);
  }

  /** A table as the CSV reader returns it: the column names and the rows.
      Only tables with three columns pass the header checks, so a row is a
      record of three numbers. */
  datatype Table<R> = Table(header: seq<string>, rows: seq<R>)

  datatype PolyKRow = PolyKRow(dose: real, day: real, hasTumor: real)

  datatype RaoScottRow = RaoScottRow(dose: real, n: real, incidence: real)

  /** The `ValueError`s the validators raise. */
  datatype DatasetError =
    | TooLarge
    | EmptyDataset
    | BadColumns
    | NegativeDose
    | NegativeDay
    | HasTumorNotBinary
    | NonPositiveN
    | NegativeIncidence
    | IncidenceAboveN

  /** The distinct `has_tumor` values of the rows (`unique()`). */
  function HasTumorValues(rows: seq<PolyKRow>): (vs: set<real>)
    ensures forall i :: 0 <= i < |rows| ==> rows[i].hasTumor in vs
    ensures forall v :: v in vs ==> exists i :: 0 <= i < |rows| && rows[i].hasTumor == v
  {
    if |rows| == 0 then {}
    else
      var rest := HasTumorValues(rows[1..]);
      assert forall i :: 1 <= i < |rows| ==> rows[i] == rows[1..][i - 1];
      {rows[0].hasTumor} + rest
  }

  /** Every dose is non-negative. */
  predicate PolyKDosesNonNegative(rows: seq<PolyKRow>) {
    forall i :: 0 <= i < |rows| ==> rows[i].dose >= 0.0
  }

  /** Every day is non-negative. */
  predicate DaysNonNegative(rows: seq<PolyKRow>) {
    forall i :: 0 <= i < |rows| ==> rows[i].day >= 0.0
  }

  /** The `has_tumor` column holds exactly the two values 0 and 1: nothing
      else, and both of them. */
  predicate HasTumorBinary(rows: seq<PolyKRow>) {
    && (forall i :: 0 <= i < |rows| ==> rows[i].hasTumor == 0.0 || rows[i].hasTumor == 1.0)
    && (exists i :: 0 <= i < |rows| && rows[i].hasTumor == 0.0)
    && (exists i :: 0 <= i < |rows| && rows[i].hasTumor == 1.0)
  }

  /** Comparing the set of distinct `has_tumor` values with `{0, 1}` is the
      same as asking that the column be binary with both values present. */
  lemma HasTumorValuesBinary(rows: seq<PolyKRow>)
    ensures HasTumorValues(rows) == {0.0, 1.0} <==> HasTumorBinary(rows)
  {
    var vs := HasTumorValues(rows);
    if HasTumorBinary(rows) {
      var i0 :| 0 <= i0 < |rows| && rows[i0].hasTumor == 0.0;
      var i1 :| 0 <= i1 < |rows| && rows[i1].hasTumor == 1.0;
      assert 0.0 in vs && 1.0 in vs;
    }
  }

  /** A PolyK table the validator accepts. */
  predicate ValidPolyKTable(t: Table<PolyKRow>) {
    && t.header == PolyKColumns
    && PolyKDosesNonNegative(t.rows)
    && DaysNonNegative(t.rows)
    && HasTumorBinary(t.rows)
  }

  /** `PolyKInput.check_dataset`. Each rejection is tied to its own condition
      and to the checks before it: the size, the parse, the header, then the
      doses, the days and the `has_tumor` values, in that order. */
  function CheckPolyKDataset(value: string, read: string -> Option<Table<PolyKRow>>)
    : (r: Result<string, DatasetError>)
    ensures |value| > PolyKMaxChars ==> r == Err(TooLarge)
    ensures r.Ok? <==>
              && |value| <= PolyKMaxChars
              && read(Normalize(value)).Some?
              && ValidPolyKTable(read(Normalize(value)).value)
    ensures r.Ok? ==> r.value == Normalize(value)
    ensures r == Err(EmptyDataset) <==> |value| <= PolyKMaxChars && read(Normalize(value)).None?
    ensures r == Err(BadColumns) <==>
              |value| <= PolyKMaxChars && read(Normalize(value)).Some?
              && read(Normalize(value)).value.header != PolyKColumns
    ensures r == Err(NegativeDose) <==>
              && |value| <= PolyKMaxChars && read(Normalize(value)).Some?
              && read(Normalize(value)).value.header == PolyKColumns
              && !PolyKDosesNonNegative(read(Normalize(value)).value.rows)
    ensures r == Err(NegativeDay) <==>
              && |value| <= PolyKMaxChars && read(Normalize(value)).Some?
              && read(Normalize(value)).value.header == PolyKColumns
              && PolyKDosesNonNegative(read(Normalize(value)).value.rows)
              && !DaysNonNegative(read(Normalize(value)).value.rows)
    ensures r == Err(HasTumorNotBinary) <==>
              && |value| <= PolyKMaxChars && read(Normalize(value)).Some?
              && read(Normalize(value)).value.header == PolyKColumns
              && PolyKDosesNonNegative(read(Normalize(value)).value.rows)
              && DaysNonNegative(read(Normalize(value)).value.rows)
              && !HasTumorBinary(read(Normalize(value)).value.rows)
  {
    if |value| > PolyKMaxChars then Err(TooLarge)
    else
      var text := Normalize(value);
      match read(text)
      case None => Err(EmptyDataset)
      case Some(t) =>
        HasTumorValuesBinary(t.rows);
        if t.header != PolyKColumns then Err(BadColumns)
        else if !PolyKDosesNonNegative(t.rows) then Err(NegativeDose)
        else if !DaysNonNegative(t.rows) then Err(NegativeDay)
        else if HasTumorValues(t.rows) != {0.0, 1.0} then Err(HasTumorNotBinary)
        else Ok(text)
  }

  /** The value a PolyK check returns passes the same check unchanged, so a
      stored dataset can be validated again. */
  lemma PolyKValueRevalidates(value: string, read: string -> Option<Table<PolyKRow>>)
    requires CheckPolyKDataset(value, read).Ok?
    ensures CheckPolyKDataset(CheckPolyKDataset(value, read).value, read) == CheckPolyKDataset(value, read)
  {
    NormalizeIdempotent(value);
  }

  /** When the reader finds no data in the empty text, as `read_csv` does,
      a PolyK dataset of whitespace alone is rejected as empty. */
  lemma BlankPolyKDatasetIsEmpty(value: string, read: string -> Option<Table<PolyKRow>>)
    requires |value| <= PolyKMaxChars
    requires forall k :: 0 <= k < |value| ==> IsWhitespace(value[k])
    requires read("").None?
    ensures CheckPolyKDataset(value, read) == Err(EmptyDataset)
  {
    WhitespaceNormalizesToEmpty(value);
  }

  /** An all-zero (or all-one) `has_tumor` column is rejected. */
  lemma SingleValuedHasTumorRejected(value: string, read: string -> Option<Table<PolyKRow>>, v: real)
    requires |value| <= PolyKMaxChars && read(Normalize(value)).Some?
    requires forall i :: 0 <= i < |read(Normalize(value)).value.rows| ==> read(Normalize(value)).value.rows[i].hasTumor == v
    ensures CheckPolyKDataset(value, read).Err?
  {
  }

  /** `(n - incidence).min()`, absent for a table without rows. */
  function MinNonIncidence(rows: seq<RaoScottRow>): (m: Option<real>)
    ensures m.None? <==> |rows| == 0
    ensures m.Some? ==> forall i :: 0 <= i < |rows| ==> m.value <= rows[i].n - rows[i].incidence
    ensures m.Some? ==> exists i :: 0 <= i < |rows| && m.value == rows[i].n - rows[i].incidence
  {
    if |rows| == 0 then None
    else
      var here := rows[0].n - rows[0].incidence;
      assert forall i :: 1 <= i < |rows| ==> rows[i] == rows[1..][i - 1];
      match MinNonIncidence(rows[1..])
      case None => Some(here)
      case Some(m) => if m < here then Some(m) else Some(here)
  }

  /** Every dose is non-negative. */
  predicate RaoScottDosesNonNegative(rows: seq<RaoScottRow>) {
    forall i :: 0 <= i < |rows| ==> rows[i].dose >= 0.0
  }

  /** Every group size is positive. */
  predicate NsPositive(rows: seq<RaoScottRow>) {
    forall i :: 0 <= i < |rows| ==> rows[i].n > 0.0
  }

  /** Every incidence is non-negative. */
  predicate IncidencesNonNegative(rows: seq<RaoScottRow>) {
    forall i :: 0 <= i < |rows| ==> rows[i].incidence >= 0.0
  }

  /** No incidence exceeds its group size. */
  predicate IncidencesWithinN(rows: seq<RaoScottRow>) {
    forall i :: 0 <= i < |rows| ==> rows[i].incidence <= rows[i].n
  }

  /** A Rao-Scott table the validator accepts. */
  predicate ValidRaoScottTable(t: Table<RaoScottRow>) {
    && t.header == RaoScottColumns
    && RaoScottDosesNonNegative(t.rows)
    && NsPositive(t.rows)
    && IncidencesNonNegative(t.rows)
    && IncidencesWithinN(t.rows)
  }

  /** `RaoScottInput.check_dataset`. Each rejection is tied to its own
      condition and to the checks before it: the size, the parse, the header,
      then the doses, the group sizes, the incidences and finally incidence
      against group size. */
  function CheckRaoScottDataset(value: string, read: string -> Option<Table<RaoScottRow>>)
    : (r: Result<string, DatasetError>)
    ensures |value| > RaoScottMaxChars ==> r == Err(TooLarge)
    ensures r.Ok? <==>
              && |value| <= RaoScottMaxChars
              && read(Normalize(value)).Some?
              && ValidRaoScottTable(read(Normalize(value)).value)
    ensures r.Ok? ==> r.value == Normalize(value)
    ensures r == Err(EmptyDataset) <==> |value| <= RaoScottMaxChars && read(Normalize(value)).None?
    ensures r == Err(BadColumns) <==>
              |value| <= RaoScottMaxChars && read(Normalize(value)).Some?
              && read(Normalize(value)).value.header != RaoScottColumns
    ensures r == Err(NegativeDose) <==>
              && |value| <= RaoScottMaxChars && read(Normalize(value)).Some?
              && read(Normalize(value)).value.header == RaoScottColumns
              && !RaoScottDosesNonNegative(read(Normalize(value)).value.rows)
    ensures r == Err(NonPositiveN) <==>
              && |value| <= RaoScottMaxChars && read(Normalize(value)).Some?
              && read(Normalize(value)).value.header == RaoScottColumns
              && RaoScottDosesNonNegative(read(Normalize(value)).value.rows)
              && !NsPositive(read(Normalize(value)).value.rows)
    ensures r == Err(NegativeIncidence) <==>
              && |value| <= RaoScottMaxChars && read(Normalize(value)).Some?
              && read(Normalize(value)).value.header == RaoScottColumns
              && RaoScottDosesNonNegative(read(Normalize(value)).value.rows)
              && NsPositive(read(Normalize(value)).value.rows)
              && !IncidencesNonNegative(read(Normalize(value)).value.rows)
    ensures r == Err(IncidenceAboveN) <==>
              && |value| <= RaoScottMaxChars && read(Normalize(value)).Some?
              && read(Normalize(value)).value.header == RaoScottColumns
              && RaoScottDosesNonNegative(read(Normalize(value)).value.rows)
              && NsPositive(read(Normalize(value)).value.rows)
              && IncidencesNonNegative(read(Normalize(value)).value.rows)
              && !IncidencesWithinN(read(Normalize(value)).value.rows)
  {
    if |value| > RaoScottMaxChars then Err(TooLarge)
    else
      var text := Normalize(value);
      match read(text)
      case None => Err(EmptyDataset)
      case Some(t) =>
        if t.header != RaoScottColumns then Err(BadColumns)
        else if !RaoScottDosesNonNegative(t.rows) then Err(NegativeDose)
        else if !NsPositive(t.rows) then Err(NonPositiveN)
        else if !IncidencesNonNegative(t.rows) then Err(NegativeIncidence)
        else match MinNonIncidence(t.rows)
          case Some(m) => if m < 0.0 then Err(IncidenceAboveN) else Ok(text)
          case None => Ok(text)
  }

  /** The value a Rao-Scott check returns passes the same check unchanged. */
  lemma RaoScottValueRevalidates(value: string, read: string -> Option<Table<RaoScottRow>>)
    requires CheckRaoScottDataset(value, read).Ok?
    ensures CheckRaoScottDataset(CheckRaoScottDataset(value, read).value, read) == CheckRaoScottDataset(value, read)
  {
    NormalizeIdempotent(value);
  }

  /** The same for a Rao-Scott dataset of whitespace alone. */
  lemma BlankRaoScottDatasetIsEmpty(value: string, read: string -> Option<Table<RaoScottRow>>)
    requires |value| <= RaoScottMaxChars
    requires forall k :: 0 <= k < |value| ==> IsWhitespace(value[k])
    requires read("").None?
    ensures CheckRaoScottDataset(value, read) == Err(EmptyDataset)
  {
    WhitespaceNormalizesToEmpty(value);
  }

  /** A validated PolyK request. */
  datatype PolyKInput = PolyKInput(dataset: string, doseUnits: string, power: real, duration: Option<real>)

  /** One failing field of a PolyK request: a required field left out, the
      dataset's own rejection, or a bound broken. */
  datatype PolyKFieldError =
    | FieldMissing(field: string)
    | DatasetRejected(reason: DatasetError)
    | PowerOutOfRange
    | DurationOutOfRange

  const DefaultPower: real := 3.0

  predicate PowerAccepted(power: Option<real>) {
    power.None? || 0.0 <= power.value <= 5.0
  }

  predicate DurationAccepted(duration: Option<real>) {
    duration.None? || 0.0 < duration.value <= 10000.0
  }

  /** `e` names a field of the request that did fail, as it failed. */
  predicate PolyKErrorHolds(e: PolyKFieldError, dataset: Option<string>, doseUnits: Option<string>,
                            power: Option<real>, duration: Option<real>, read: string -> Option<Table<PolyKRow>>) {
    match e
    case FieldMissing(field) => (field == "dataset" && dataset.None?) || (field == "dose_units" && doseUnits.None?)
    case DatasetRejected(reason) => dataset.Some? && CheckPolyKDataset(dataset.value, read) == Err(reason)
    case PowerOutOfRange => !PowerAccepted(power)
    case DurationOutOfRange => !DurationAccepted(duration)
  }

  /** No error is listed twice. */
  predicate NoRepeatedError(es: seq<PolyKFieldError>) {
    forall i, j :: 0 <= i < j < |es| ==> es[i] != es[j]
  }

  /** Two lists without repeats and without a common error join into one. */
  lemma NoRepeatedErrorJoin(a: seq<PolyKFieldError>, b: seq<PolyKFieldError>)
    requires NoRepeatedError(a) && NoRepeatedError(b)
    requires forall e :: e in a ==> e !in b
    ensures NoRepeatedError(a + b)
  {
    forall i, j | 0 <= i < j < |a + b|
      ensures (a + b)[i] != (a + b)[j]
    {
      if j < |a| {
        assert (a + b)[i] == a[i] && (a + b)[j] == a[j];
      } else if |a| <= i {
        assert (a + b)[i] == b[i - |a|] && (a + b)[j] == b[j - |a|];
      } else {
        assert (a + b)[i] == a[i] && a[i] in a;
        assert (a + b)[j] == b[j - |a|] && b[j - |a|] in b;
      }
    }
  }

  /** The errors of the `dataset` field: missing, or rejected by its check. */
  function DatasetFieldErrors(dataset: Option<string>, read: string -> Option<Table<PolyKRow>>)
    : (es: seq<PolyKFieldError>)
    ensures dataset.None? ==> es == [FieldMissing("dataset")]
    ensures dataset.Some? && CheckPolyKDataset(dataset.value, read).Err? ==>
              es == [DatasetRejected(CheckPolyKDataset(dataset.value, read).error)]
    ensures dataset.Some? && CheckPolyKDataset(dataset.value, read).Ok? ==> es == []
    ensures forall e :: e in es && e.FieldMissing? ==> e.field == "dataset" && dataset.None?
    ensures forall e :: e in es && e.DatasetRejected? ==>
              dataset.Some? && CheckPolyKDataset(dataset.value, read) == Err(e.reason)
    ensures forall e :: e in es ==> e.FieldMissing? || e.DatasetRejected?
  {
    match dataset
    case None => [FieldMissing("dataset")]
    case Some(d) =>
      var checked := CheckPolyKDataset(d, read);
      if checked.Err? then [DatasetRejected(checked.error)] else []
  }

  /** Every failing field of a PolyK request, each once, in declaration
      order. */
  function PolyKErrors(dataset: Option<string>, doseUnits: Option<string>, power: Option<real>,
                       duration: Option<real>, read: string -> Option<Table<PolyKRow>>)
    : (es: seq<PolyKFieldError>)
    ensures es == [] <==>
              && dataset.Some? && CheckPolyKDataset(dataset.value, read).Ok?
              && doseUnits.Some? && PowerAccepted(power) && DurationAccepted(duration)
    ensures forall e :: e in es && e.FieldMissing? ==>
              (e.field == "dataset" && dataset.None?) || (e.field == "dose_units" && doseUnits.None?)
    ensures PowerOutOfRange in es ==> !PowerAccepted(power)
    ensures DurationOutOfRange in es ==> !DurationAccepted(duration)
    ensures forall e :: e in es && e.DatasetRejected? ==>
              dataset.Some? && CheckPolyKDataset(dataset.value, read) == Err(e.reason)
    ensures NoRepeatedError(es)
  {
    var a := DatasetFieldErrors(dataset, read);
    var b := if doseUnits.Some? then [] else [FieldMissing("dose_units")];
    var c := if PowerAccepted(power) then [] else [PowerOutOfRange];
    var d := if DurationAccepted(duration) then [] else [DurationOutOfRange];
    NoRepeatedErrorJoin(a, b);
    NoRepeatedErrorJoin(a + b, c);
    NoRepeatedErrorJoin(a + b + c, d);
    a + b + c + d
  }

  /** Every error listed names a field that did fail, as it failed. */
  lemma PolyKErrorsSound(dataset: Option<string>, doseUnits: Option<string>, power: Option<real>,
                         duration: Option<real>, read: string -> Option<Table<PolyKRow>>)
    ensures forall e :: e in PolyKErrors(dataset, doseUnits, power, duration, read) ==>
              PolyKErrorHolds(e, dataset, doseUnits, power, duration, read)
  {
    var es := PolyKErrors(dataset, doseUnits, power, duration, read);
    forall e | e in es
      ensures PolyKErrorHolds(e, dataset, doseUnits, power, duration, read)
    {
    }
  }

  /** Every failing field of a PolyK request is listed. */
  lemma PolyKErrorsComplete(dataset: Option<string>, doseUnits: Option<string>, power: Option<real>,
                            duration: Option<real>, read: string -> Option<Table<PolyKRow>>)
    ensures var es := PolyKErrors(dataset, doseUnits, power, duration, read);
            && (dataset.None? ==> FieldMissing("dataset") in es)
            && (doseUnits.None? ==> FieldMissing("dose_units") in es)
            && (!PowerAccepted(power) ==> PowerOutOfRange in es)
            && (!DurationAccepted(duration) ==> DurationOutOfRange in es)
            && (dataset.Some? && CheckPolyKDataset(dataset.value, read).Err? ==>
                  DatasetRejected(CheckPolyKDataset(dataset.value, read).error) in es)
  {
  }

  /** Validation of a whole `PolyKInput`: every field is checked and every
      failing field reported. `dataset` and `dose_units` are required; an
      absent `power` takes its default and an absent `duration` stays absent. */
  function ValidatePolyKInput(dataset: Option<string>, doseUnits: Option<string>, power: Option<real>,
                              duration: Option<real>, read: string -> Option<Table<PolyKRow>>)
    : (r: Result<PolyKInput, seq<PolyKFieldError>>)
    ensures r.Ok? <==>
              && dataset.Some? && CheckPolyKDataset(dataset.value, read).Ok?
              && doseUnits.Some? && PowerAccepted(power) && DurationAccepted(duration)
    ensures r.Ok? ==>
              && r.value.dataset == Normalize(dataset.value)
              && r.value.doseUnits == doseUnits.value
              && 0.0 <= r.value.power <= 5.0
              && r.value.power == (if power.Some? then power.value else DefaultPower)
              && r.value.duration == duration
              && (r.value.duration.Some? ==> 0.0 < r.value.duration.value <= 10000.0)
    ensures r.Err? ==> (FieldMissing("dataset") in r.error <==> dataset.None?)
    ensures r.Err? ==> (FieldMissing("dose_units") in r.error <==> doseUnits.None?)
    ensures r.Err? ==> (PowerOutOfRange in r.error <==> !PowerAccepted(power))
    ensures r.Err? ==> (DurationOutOfRange in r.error <==> !DurationAccepted(duration))
    ensures r.Err? && dataset.Some? && CheckPolyKDataset(dataset.value, read).Err? ==>
              DatasetRejected(CheckPolyKDataset(dataset.value, read).error) in r.error
    ensures r.Err? ==> forall e :: e in r.error ==> PolyKErrorHolds(e, dataset, doseUnits, power, duration, read)
    ensures r.Err? ==> NoRepeatedError(r.error)
  {
    var errors := PolyKErrors(dataset, doseUnits, power, duration, read);
    PolyKErrorsComplete(dataset, doseUnits, power, duration, read);
    PolyKErrorsSound(dataset, doseUnits, power, duration, read);
    if errors == [] then
      Ok(PolyKInput(Normalize(dataset.value), doseUnits.value,
                    if power.Some? then power.value else DefaultPower, duration))
    else
      Err(errors)
  }

}

=== FILE: transforms.dfy ===
/** Translation of validated client input into the engine's configuration, and
    the two rewrites that expand the generic "exponential" model request into
    the engine's M3 and M5 variants. */
module Transforms {
  import opened Results
  import opened Payloads
  import Engine

  /** The client's prior-class tag (`PriorEnum`). */
  datatype PriorEnum = FrequentistRestricted | FrequentistUnrestricted | Bayesian {
    /** The string the client sends for this tag. */
    function Value(): string {
      match this
      case FrequentistRestricted => "frequentist_restricted"
      case FrequentistUnrestricted => "frequentist_unrestricted"
      case Bayesian => "bayesian"
    }
  }

  /** The tag a string names, if any. */
  function ParsePriorEnum(tag: string): (p: Option<PriorEnum>)
    ensures p.Some? ==> p.value.Value() == tag
    ensures p.None? ==> forall q: PriorEnum :: q.Value() != tag
  {
    if tag == "frequentist_restricted" then Some(FrequentistRestricted)
    else if tag == "frequentist_unrestricted" then Some(FrequentistUnrestricted)
    else if tag == "bayesian" then Some(Bayesian)
    else None
  }

  /** The fixed prior table `bmd3_prior_map`. */
  function Bmd3Prior(p: PriorEnum): (c: Engine.PriorClass)
    ensures c == Engine.FrequentistRestricted <==> p == FrequentistRestricted
    ensures c == Engine.FrequentistUnrestricted <==> p == FrequentistUnrestricted
    ensures c == Engine.Bayesian <==> p == Bayesian
  {
    match p
    case FrequentistRestricted => Engine.FrequentistRestricted
    case FrequentistUnrestricted => Engine.FrequentistUnrestricted
    case Bayesian => Engine.Bayesian
  }

  /** The adverse direction of a continuous dataset (`AdverseDirection`). */
  datatype AdverseDirection = Automatic | Up | Down {
    /** The integer code the client sends. */
    function Code(): int {
      match this
      case Automatic => -1
      case Up => 1
      case Down => 0
    }
  }

  /** The direction an integer code names, if any. */
  function ParseAdverseDirection(code: int): (d: Option<AdverseDirection>)
    ensures d.Some? ==> d.value.Code() == code
    ensures d.None? ==> forall e: AdverseDirection :: e.Code() != code
  {
    if code == -1 then Some(Automatic)
    else if code == 1 then Some(Up)
    else if code == 0 then Some(Down)
    else None
  }

  /** The fixed table `is_increasing_map`: automatic leaves the engine to decide. */
  function IsIncreasing(d: AdverseDirection): (b: Option<bool>)
    ensures b.None? <==> d == Automatic
    ensures b == Some(true) <==> d == Up
    ensures b == Some(false) <==> d == Down
  {
    match d
    case Automatic => None
    case Up => Some(true)
    case Down => Some(false)
  }

  /** The exceptions the builder raises. */
  datatype BuildError =
    | UnknownPriorClass(tag: string)        // KeyError from the prior table
    | MissingKey(key: string)               // KeyError reading an absent option
    | UnknownAdverseDirection(code: int)    // KeyError from the direction table
    | UnknownDatasetType(dtype: string)     // ValueError

  function Require<T>(v: Option<T>, key: string): (r: Result<T, BuildError>)
    ensures r.Ok? <==> v.Some?
    ensures r.Ok? ==> v == Some(r.value)
    ensures r.Err? ==> r.error == MissingKey(key)
  {
    match v
    case Some(x) => Ok(x)
    case None => Err(MissingKey(key))
  }

  /** Every key the dichotomous branch reads is present. */
  predicate HasDichotomousKeys(options: OptionRecord, datasetOptions: DatasetOptions) {
    && options.bmrValue.Some?
    && options.confidenceLevel.Some?
    && options.bmrType.Some?
    && datasetOptions.degree.Some?
  }

  /** Every key the continuous branch reads is present, and the adverse
      direction is one the direction table knows. */
  predicate HasContinuousKeys(options: OptionRecord, datasetOptions: DatasetOptions) {
    && options.bmrValue.Some?
    && options.confidenceLevel.Some?
    && options.tailProbability.Some?
    && options.bmrType.Some?
    && options.distType.Some?
    && datasetOptions.degree.Some?
    && datasetOptions.adverseDirection.Some?
    && ParseAdverseDirection(datasetOptions.adverseDirection.value).Some?
  }

  /** One key the builder reads, and whether the input holds it. */
  datatype KeyRead = KeyRead(key: string, present: bool)

  /** The keys the dichotomous branch reads, in the order it reads them. */
  function DichotomousReads(options: OptionRecord, datasetOptions: DatasetOptions): seq<KeyRead> {
    [ KeyRead("bmr_value", options.bmrValue.Some?),
      KeyRead("confidence_level", options.confidenceLevel.Some?),
      KeyRead("bmr_type", options.bmrType.Some?),
      KeyRead("degree", datasetOptions.degree.Some?) ]
  }

  /** The keys the continuous branch reads, in the order it reads them. */
  function ContinuousReads(options: OptionRecord, datasetOptions: DatasetOptions): seq<KeyRead> {
    [ KeyRead("bmr_value", options.bmrValue.Some?),
      KeyRead("confidence_level", options.confidenceLevel.Some?),
      KeyRead("tail_probability", options.tailProbability.Some?),
      KeyRead("bmr_type", options.bmrType.Some?),
      KeyRead("dist_type", options.distType.Some?),
      KeyRead("degree", datasetOptions.degree.Some?),
      KeyRead("adverse_direction", datasetOptions.adverseDirection.Some?) ]
  }

  predicate AllPresent(order: seq<KeyRead>) {
    forall i :: 0 <= i < |order| ==> order[i].present
  }

  /** `k` is the first key of `order` that the input lacks. */
  predicate FirstAbsent(order: seq<KeyRead>, k: string) {
    exists i :: 0 <= i < |order| && order[i] == KeyRead(k, false) && AllPresent(order[..i])
  }

  /** `build_model_settings`: one option record and the per-dataset options
      become the engine's settings for the family of `datasetType`. Keys are read
      in the order the source reads them, so a missing key reports the first
      one the source would have tripped on (`MissingKeyIsFirstAbsent`). */
  function BuildModelSettings(datasetType: string, priorTag: string, options: OptionRecord,
                              datasetOptions: DatasetOptions): (r: Result<Engine.ModelSettings, BuildError>)
    // the prior lookup precedes the dispatch on the dataset type
    ensures ParsePriorEnum(priorTag).None? ==> r == Err(UnknownPriorClass(priorTag))
    ensures (ParsePriorEnum(priorTag).Some? && datasetType !in Engine.DichotomousDtypes
             && datasetType !in Engine.ContinuousDtypes) ==> r == Err(UnknownDatasetType(datasetType))
    // success exactly on complete input for a known family
    ensures r.Ok? <==>
              && ParsePriorEnum(priorTag).Some?
              && (if datasetType in Engine.DichotomousDtypes then HasDichotomousKeys(options, datasetOptions)
                  else datasetType in Engine.ContinuousDtypes && HasContinuousKeys(options, datasetOptions))
    // the shape follows the family; the dichotomous family is checked first
    ensures r.Ok? ==> (r.value.DichotomousSettings? <==> datasetType in Engine.DichotomousDtypes)
    // fields common to both shapes: copied, except alpha = 1 - confidence level
    ensures r.Ok? ==>
              && r.value.priors == Bmd3Prior(ParsePriorEnum(priorTag).value)
              && options.bmrValue == Some(r.value.bmr)
              && options.bmrType == Some(r.value.bmrType)
              && options.confidenceLevel == Some(1.0 - r.value.alpha)
              && datasetOptions.degree == Some(r.value.degree)
    // a confidence level the validator accepts gives 0 < alpha < 0.5
    ensures r.Ok? && 0.5 < options.confidenceLevel.value < 1.0 ==> 0.0 < r.value.alpha < 0.5
    // continuous-only fields
    ensures r.Ok? && r.value.ContinuousSettings? ==>
              && options.tailProbability == Some(r.value.tailProb)
              && options.distType == Some(r.value.distType)
              && exists d: AdverseDirection ::
                   && datasetOptions.adverseDirection == Some(d.Code())
                   && r.value.isIncreasing == IsIncreasing(d)
  {
    match ParsePriorEnum(priorTag)
    case None => Err(UnknownPriorClass(priorTag))
    case Some(p) =>
      var prior := Bmd3Prior(p);
      if datasetType in Engine.DichotomousDtypes then
        var bmr :- Require(options.bmrValue, "bmr_value");
        var confidence :- Require(options.confidenceLevel, "confidence_level");
        var bmrType :- Require(options.bmrType, "bmr_type");
        var degree :- Require(datasetOptions.degree, "degree");
        Ok(Engine.DichotomousSettings(bmr, 1.0 - confidence, bmrType, degree, prior))
      else if datasetType in Engine.ContinuousDtypes then
        var bmr :- Require(options.bmrValue, "bmr_value");
        var confidence :- Require(options.confidenceLevel, "confidence_level");
        var tail :- Require(options.tailProbability, "tail_probability");
        var bmrType :- Require(options.bmrType, "bmr_type");
        var distType :- Require(options.distType, "dist_type");
        var degree :- Require(datasetOptions.degree, "degree");
        var code :- Require(datasetOptions.adverseDirection, "adverse_direction");
        match ParseAdverseDirection(code)
        case None => Err(UnknownAdverseDirection(code))
        case Some(d) =>
          Ok(Engine.ContinuousSettings(bmr, 1.0 - confidence, tail, bmrType, distType, degree,
                                       IsIncreasing(d), prior))
      else
        Err(UnknownDatasetType(datasetType))
  }

  /** A missing key is reported by name, and it is the first absent key in
      the order the family's branch reads them; once every key is present,
      the only error left for the continuous family is an adverse direction
      the direction table does not know. */
  lemma MissingKeyIsFirstAbsent(datasetType: string, priorTag: string, options: OptionRecord,
                                datasetOptions: DatasetOptions)
    ensures var r := BuildModelSettings(datasetType, priorTag, options, datasetOptions);
            var order := DichotomousReads(options, datasetOptions);
            ParsePriorEnum(priorTag).Some? && datasetType in Engine.DichotomousDtypes ==>
              && (r.Err? <==> !AllPresent(order))
              && (r.Err? ==> r.error.MissingKey? && FirstAbsent(order, r.error.key))
    ensures var r := BuildModelSettings(datasetType, priorTag, options, datasetOptions);
            var order := ContinuousReads(options, datasetOptions);
            ParsePriorEnum(priorTag).Some? && datasetType !in Engine.DichotomousDtypes
            && datasetType in Engine.ContinuousDtypes ==>
              && (!AllPresent(order) ==> r.Err? && r.error.MissingKey? && FirstAbsent(order, r.error.key))
              && (AllPresent(order) && r.Err? ==>
                    && datasetOptions.adverseDirection.Some?
                    && r.error == UnknownAdverseDirection(datasetOptions.adverseDirection.value))
  {
    if ParsePriorEnum(priorTag).Some? {
      if datasetType in Engine.DichotomousDtypes {
        DichotomousMissingKey(datasetType, priorTag, options, datasetOptions);
      } else if datasetType in Engine.ContinuousDtypes {
        ContinuousMissingKey(datasetType, priorTag, options, datasetOptions);
      }
    }
  }

  /** The dichotomous half of `MissingKeyIsFirstAbsent`. */
  lemma DichotomousMissingKey(datasetType: string, priorTag: string, options: OptionRecord,
                              datasetOptions: DatasetOptions)
    requires ParsePriorEnum(priorTag).Some? && datasetType in Engine.DichotomousDtypes
    ensures var r := BuildModelSettings(datasetType, priorTag, options, datasetOptions);
            var order := DichotomousReads(options, datasetOptions);
            && (r.Err? <==> !AllPresent(order))
            && (r.Err? ==> r.error.MissingKey? && FirstAbsent(order, r.error.key))
  {
    var r := BuildModelSettings(datasetType, priorTag, options, datasetOptions);
    var order := DichotomousReads(options, datasetOptions);
    if options.bmrValue.None? {
      assert r == Err(MissingKey("bmr_value"));
      FirstAbsentAt(order, 0);
    } else if options.confidenceLevel.None? {
      assert r == Err(MissingKey("confidence_level"));
      FirstAbsentAt(order, 1);
    } else if options.bmrType.None? {
      assert r == Err(MissingKey("bmr_type"));
      FirstAbsentAt(order, 2);
    } else if datasetOptions.degree.None? {
      assert r == Err(MissingKey("degree"));
      FirstAbsentAt(order, 3);
    }
  }

  /** The continuous half of `MissingKeyIsFirstAbsent`. */
  lemma ContinuousMissingKey(datasetType: string, priorTag: string, options: OptionRecord,
                             datasetOptions: DatasetOptions)
    requires ParsePriorEnum(priorTag).Some?
    requires datasetType !in Engine.DichotomousDtypes && datasetType in Engine.ContinuousDtypes
    ensures var r := BuildModelSettings(datasetType, priorTag, options, datasetOptions);
            var order := ContinuousReads(options, datasetOptions);
            && (!AllPresent(order) ==> r.Err? && r.error.MissingKey? && FirstAbsent(order, r.error.key))
            && (AllPresent(order) && r.Err? ==>
                  && datasetOptions.adverseDirection.Some?
                  && r.error == UnknownAdverseDirection(datasetOptions.adverseDirection.value))
  {
    var r := BuildModelSettings(datasetType, priorTag, options, datasetOptions);
    var order := ContinuousReads(options, datasetOptions);
    if options.bmrValue.None? {
      assert r == Err(MissingKey("bmr_value"));
      FirstAbsentAt(order, 0);
    } else if options.confidenceLevel.None? {
      assert r == Err(MissingKey("confidence_level"));
      FirstAbsentAt(order, 1);
    } else if options.tailProbability.None? {
      assert r == Err(MissingKey("tail_probability"));
      FirstAbsentAt(order, 2);
    } else if options.bmrType.None? {
      assert r == Err(MissingKey("bmr_type"));
      FirstAbsentAt(order, 3);
    } else if options.distType.None? {
      assert r == Err(MissingKey("dist_type"));
      FirstAbsentAt(order, 4);
    } else if datasetOptions.degree.None? {
      assert r == Err(MissingKey("degree"));
      FirstAbsentAt(order, 5);
    } else if datasetOptions.adverseDirection.None? {
      assert r == Err(MissingKey("adverse_direction"));
      FirstAbsentAt(order, 6);
    } else {
      assert AllPresent(order);
    }
  }

  /** A key absent at position `i` with every earlier key present is the
      first absent key. */
  lemma FirstAbsentAt(order: seq<KeyRead>, i: nat)
    requires i < |order| && !order[i].present && AllPresent(order[..i])
    ensures FirstAbsent(order, order[i].key)
    ensures !AllPresent(order)
  {
    assert order[i] == KeyRead(order[i].key, false);
  }

  /** The continuous scenario the repository's tests exercise. */
  lemma ContinuousSettingsExample()
    ensures BuildModelSettings(Engine.Continuous, "frequentist_restricted",
                               OptionRecord(Some(2), Some(1.5), Some(0.95), Some(0.4), Some(1), None, None, None),
                               DatasetOptions(Some(0), Some(-1)))
            == Ok(Engine.ContinuousSettings(1.5, 0.05, 0.4, 2, 1, 0, None, Engine.FrequentistRestricted))
  {
  }

  /** The dichotomous scenario the repository's tests exercise. */
  lemma DichotomousSettingsExample()
    ensures BuildModelSettings(Engine.Dichotomous, "frequentist_restricted",
                               OptionRecord(Some(0), Some(0.15), Some(0.95), None, None, None, None, None),
                               DatasetOptions(Some(1), None))
            == Ok(Engine.DichotomousSettings(0.15, 0.05, 0, 1, Engine.FrequentistRestricted))
  {
  }

  /** The engine schemas a raw dataset payload can be parsed with. */
  datatype DatasetSchema = ContinuousSchema | ContinuousIndividualSchema | DichotomousSchema {
    /** The `dtype` value that selects this schema. */
    function Dtype(): string {
      match this
      case ContinuousSchema => Engine.Continuous
      case ContinuousIndividualSchema => Engine.ContinuousIndividual
      case DichotomousSchema => Engine.Dichotomous
    }
  }

  /** The dispatch of `build_dataset`: the schema the payload's `dtype` key
      selects, or the `KeyError` of a payload without one. Parsing the payload
      with that schema is the engine's business. */
  function SelectDatasetSchema(dtype: Option<string>): (r: Result<DatasetSchema, BuildError>)
    ensures dtype.None? ==> r == Err(MissingKey("dtype"))
    ensures r.Ok? ==> dtype == Some(r.value.Dtype())
    ensures dtype.Some? && r.Err? ==>
              r.error == UnknownDatasetType(dtype.value) && forall s: DatasetSchema :: s.Dtype() != dtype.value
    // every accepted dtype is one the settings builder also accepts, in the same family
    ensures r.Ok? ==> (dtype.value in Engine.DichotomousDtypes <==> r.value == DichotomousSchema)
    ensures r.Ok? ==> dtype.value in Engine.DichotomousDtypes + Engine.ContinuousDtypes
    // the settings builder accepts the cancer tag, but no schema exists for it
    ensures dtype == Some(Engine.DichotomousCancer) ==> r == Err(UnknownDatasetType(Engine.DichotomousCancer))
  {
    match dtype
    case None => Err(MissingKey("dtype"))
    case Some(t) =>
      if t == Engine.Continuous then Ok(ContinuousSchema)
      else if t == Engine.ContinuousIndividual then Ok(ContinuousIndividualSchema)
      else if t == Engine.Dichotomous then Ok(DichotomousSchema)
      else Err(UnknownDatasetType(t))
  }

  /** Index of the first occurrence of `x` in `s`. */
  function FirstIndex<T(==)>(s: seq<T>, x: T): (i: nat)
    requires x in s
    ensures i < |s| && s[i] == x
    ensures forall j :: 0 <= j < i ==> s[j] != x
  {
    if s[0] == x then 0 else 1 + FirstIndex(s[1..], x)
  }

  /** `remap_exponential`: the first "exponential" request becomes M3 then M5,
      in place; a list without one comes back as it is. */
  function RemapExponential(models: seq<string>): (r: seq<string>)
    ensures Engine.Exponential !in models ==> r == models
    ensures Engine.Exponential in models ==> |r| == |models| + 1
    ensures Engine.Exponential in models ==>
              var i := FirstIndex(models, Engine.Exponential);
              && r[..i] == models[..i]
              && r[i] == Engine.ExponentialM3 && r[i + 1] == Engine.ExponentialM5
              && r[i + 2..] == models[i + 1..]
  {
    if Engine.Exponential in models then
      var i := FirstIndex(models, Engine.Exponential);
      models[..i] + [Engine.ExponentialM3, Engine.ExponentialM5] + models[i + 1..]
    else
      models
  }

  /** Only the first "exponential" is consumed: the rewrite removes one copy of
      it, adds one M3 and one M5, and keeps every other element. */
  lemma {:induction false} RemapExponentialMultiset(models: seq<string>)
    requires Engine.Exponential in models
    ensures multiset(RemapExponential(models))
            == multiset(models) - multiset{Engine.Exponential} + multiset{Engine.ExponentialM3, Engine.ExponentialM5}
  {
    var i := FirstIndex(models, Engine.Exponential);
    var r := RemapExponential(models);
    assert models == models[..i] + [Engine.Exponential] + models[i + 1..];
    assert r == models[..i] + [Engine.ExponentialM3, Engine.ExponentialM5] + models[i + 1..];
    assert multiset(r) == multiset(models[..i]) + multiset{Engine.ExponentialM3, Engine.ExponentialM5}
                          + multiset(models[i + 1..]);
    assert multiset(models) == multiset(models[..i]) + multiset{Engine.Exponential} + multiset(models[i + 1..]);
  }

  /** Reference definition: walk the list and expand the first "exponential". */
  function ExpandFirstExponential(models: seq<string>): seq<string> {
    if |models| == 0 then []
    else if models[0] == Engine.Exponential then
      [Engine.ExponentialM3, Engine.ExponentialM5] + models[1..]
    else
      [models[0]] + ExpandFirstExponential(models[1..])
  }

  /** The list surgery agrees with the element-by-element reference. */
  lemma {:induction false} RemapExponentialIsExpandFirst(models: seq<string>)
    ensures RemapExponential(models) == ExpandFirstExponential(models)
  {
    if |models| > 0 && models[0] == Engine.Exponential {
      assert FirstIndex(models, Engine.Exponential) == 0;
    } else if |models| > 0 {
      var t := models[1..];
      RemapExponentialIsExpandFirst(t);
      if Engine.Exponential in models {
        assert Engine.Exponential in t by {
          var i := FirstIndex(models, Engine.Exponential);
          assert t[i - 1] == models[i];
        }
        var i := FirstIndex(models, Engine.Exponential);
        assert FirstIndex(t, Engine.Exponential) == i - 1;
        assert models[..i] == [models[0]] + t[..i - 1];
        assert models[i + 1..] == t[i..];
      } else {
        assert Engine.Exponential !in t;
      }
    }
  }

  /** The three examples the repository's tests check. */
  lemma RemapExponentialExamples()
    ensures RemapExponential([]) == []
    ensures RemapExponential([Engine.Exponential]) == [Engine.ExponentialM3, Engine.ExponentialM5]
    ensures RemapExponential(["a", Engine.Exponential, "b"])
            == ["a", Engine.ExponentialM3, Engine.ExponentialM5, "b"]
  {
    assert FirstIndex([Engine.Exponential], Engine.Exponential) == 0;
    assert FirstIndex(["a", Engine.Exponential, "b"], Engine.Exponential) == 1;
  }

  /** One entry of a Bayesian model list: its `model` and `prior_weight` keys
      and whatever other keys it carries. One dictionary has one such form
      only when `otherKeys` leaves out the two named keys (`WellFormedEntry`). */
  datatype ModelEntry<V> = ModelEntry(model: string, priorWeight: real, otherKeys: map<string, V>)

  /** `otherKeys` holds neither of the keys the entry names separately. */
  predicate WellFormedEntry<V>(e: ModelEntry<V>) {
    "model" !in e.otherKeys && "prior_weight" !in e.otherKeys
  }

  /** The `model` values of a list of entries. */
  function Models<V>(entries: seq<ModelEntry<V>>): (ms: seq<string>)
    ensures |ms| == |entries|
    ensures forall i :: 0 <= i < |entries| ==> ms[i] == entries[i].model
  {
    seq(|entries|, i requires 0 <= i < |entries| => entries[i].model)
  }

  /** Position of the first entry whose model is "exponential". */
  function FirstExponentialEntry<V>(entries: seq<ModelEntry<V>>): (i: Option<nat>)
    ensures i.Some? ==> i.value < |entries| && entries[i.value].model == Engine.Exponential
    ensures i.Some? ==> forall j :: 0 <= j < i.value ==> entries[j].model != Engine.Exponential
    ensures i.None? ==> forall j :: 0 <= j < |entries| ==> entries[j].model != Engine.Exponential
  {
    if |entries| == 0 then None
    else if entries[0].model == Engine.Exponential then Some(0)
    else match FirstExponentialEntry(entries[1..])
      case None => None
      case Some(k) => Some(k + 1)
  }

  /** `remap_bayesian_exponential`: the first "exponential" entry becomes two
      entries, M3 then M5, each carrying only a model and half the weight. */
  function RemapBayesianExponential<V>(entries: seq<ModelEntry<V>>): (r: seq<ModelEntry<V>>)
    ensures FirstExponentialEntry(entries).None? ==> r == entries
    ensures FirstExponentialEntry(entries).Some? ==>
              var i := FirstExponentialEntry(entries).value;
              && |r| == |entries| + 1
              && r[..i] == entries[..i]
              && r[i + 2..] == entries[i + 1..]
              && r[i].model == Engine.ExponentialM3 && r[i + 1].model == Engine.ExponentialM5
              && r[i].otherKeys == map[] && r[i + 1].otherKeys == map[]
              && r[i].priorWeight == r[i + 1].priorWeight
              && r[i].priorWeight + r[i + 1].priorWeight == entries[i].priorWeight
  {
    match FirstExponentialEntry(entries)
    case None => entries
    case Some(i) =>
      var weight := entries[i].priorWeight / 2.0;
      entries[..i]
      + [ModelEntry(Engine.ExponentialM3, weight, map[]), ModelEntry(Engine.ExponentialM5, weight, map[])]
      + entries[i + 1..]
  }

  /** The Bayesian rewrite keeps a list of well-formed entries well formed. */
  lemma RemapBayesianKeepsWellFormed<V>(entries: seq<ModelEntry<V>>)
    requires forall k :: 0 <= k < |entries| ==> WellFormedEntry(entries[k])
    ensures forall k :: 0 <= k < |RemapBayesianExponential(entries)| ==> WellFormedEntry(RemapBayesianExponential(entries)[k])
  {
    var r := RemapBayesianExponential(entries);
    if FirstExponentialEntry(entries).Some? {
      var i := FirstExponentialEntry(entries).value;
      forall k | 0 <= k < |r|
        ensures WellFormedEntry(r[k])
      {
        if k < i {
          assert r[k] == r[..i][k] == entries[k];
        } else if k >= i + 2 {
          assert r[k] == r[i + 2..][k - i - 2] == entries[k - 1];
        }
      }
    }
  }

  /** Sum of the prior weights of a list of entries. */
  function TotalWeight<V>(entries: seq<ModelEntry<V>>): real {
    if |entries| == 0 then 0.0 else entries[0].priorWeight + TotalWeight(entries[1..])
  }

  lemma {:induction false} TotalWeightAppend<V>(a: seq<ModelEntry<V>>, b: seq<ModelEntry<V>>)
    ensures TotalWeight(a + b) == TotalWeight(a) + TotalWeight(b)
  {
    if |a| == 0 {
      assert a + b == b;
    } else {
      assert (a + b)[1..] == a[1..] + b;
      TotalWeightAppend(a[1..], b);
    }
  }

  /** The Bayesian rewrite leaves the total prior weight of the list unchanged. */
  lemma {:induction false} RemapBayesianKeepsTotalWeight<V>(entries: seq<ModelEntry<V>>)
    ensures TotalWeight(RemapBayesianExponential(entries)) == TotalWeight(entries)
  {
    match FirstExponentialEntry(entries)
    case None =>
    case Some(i) =>
      var r := RemapBayesianExponential(entries);
      var pair := r[i..i + 2];
      assert r == entries[..i] + pair + entries[i + 1..];
      assert entries == entries[..i] + [entries[i]] + entries[i + 1..];
      TotalWeightAppend(entries[..i] + pair, entries[i + 1..]);
      TotalWeightAppend(entries[..i], pair);
      TotalWeightAppend(entries[..i] + [entries[i]], entries[i + 1..]);
      TotalWeightAppend(entries[..i], [entries[i]]);
      assert TotalWeight(pair) == pair[0].priorWeight + (pair[1].priorWeight + TotalWeight(pair[2..]));
      assert TotalWeight([entries[i]]) == entries[i].priorWeight + TotalWeight([entries[i]][1..]);
  }

  /** The Bayesian rewrite does to the model names exactly what the plain
      rewrite does to a list of names. */
  lemma {:induction false} RemapBayesianAgreesWithRemap<V>(entries: seq<ModelEntry<V>>)
    ensures Models(RemapBayesianExponential(entries)) == RemapExponential(Models(entries))
  {
    var ms := Models(entries);
    match FirstExponentialEntry(entries)
    case None =>
      assert Engine.Exponential !in ms;
    case Some(i) =>
      assert ms[i] == Engine.Exponential;
      assert FirstIndex(ms, Engine.Exponential) == i;
      var r := RemapBayesianExponential(entries);
      var rm := RemapExponential(ms);
      assert |Models(r)| == |rm|;
      forall k | 0 <= k < |rm|
        ensures Models(r)[k] == rm[k]
      {
        if k < i {
          assert r[k] == r[..i][k];
          assert rm[k] == rm[..i][k];
        } else if k >= i + 2 {
          assert r[k] == r[i + 2..][k - i - 2];
          assert rm[k] == rm[i + 2..][k - i - 2];
        }
      }
  }
}

=== FILE: views.dfy ===
/** Pure helpers of the analysis views: the retention period shown on the home
    page, the look-up that decides whether a visitor may edit an analysis, and
    the renaming of inputs when an analysis is cloned. The database is a map
    from primary key to record. */
module Views {
  import opened Results
  import opened Decimal

  predicate HasSuffix(s: string, suffix: string) {
    |suffix| <= |s| && s[|s| - |suffix|..] == suffix
  }

  /** `Home.days_to_keep`: a retention period in days as text. */
  function DaysToKeep(days: int): (text: string)
    ensures days == 365 <==> text == "1 year"
    ensures days != 365 && (days < 365 || days % 365 > 0) ==> text == IntToText(days) + " days"
    ensures HasSuffix(text, " years") <==> days > 365 && days % 365 == 0
    ensures HasSuffix(text, " years") ==> text == NatToText(days / 365) + " years" && days / 365 >= 2
  {
    if days == 365 then "1 year"
    else if days < 365 || days % 365 > 0 then
      var t := IntToText(days) + " days";
      assert |IntToText(days)| >= 1;
      assert t[|t| - 5] == ' ';
      assert t[|t| - 1] == 's';
      t
    else
      var t := NatToText(days / 365) + " years";
      assert t[|t| - 6..] == " years";
      assert t[|t| - 1] == 's';
      t
  }

  /** Reading a retention text back into days. */
  function ParseRetention(text: string): Option<int> {
    if text == "1 year" then Some(365)
    else if HasSuffix(text, " days") then ParseInt(text[..|text| - 5])
    else if HasSuffix(text, " years") then
      match ParseNat(text[..|text| - 6])
      case None => None
      case Some(k) => Some(365 * k)
    else None
  }

  /** The retention text determines the period: distinct periods are never
      shown alike. */
  lemma DaysToKeepReadsBack(days: int)
    ensures ParseRetention(DaysToKeep(days)) == Some(days)
  {
    var text := DaysToKeep(days);
    if days == 365 {
    } else if days < 365 || days % 365 > 0 {
      ParseIntOfIntToText(days);
      assert text[|text| - 5..] == " days";
      assert text[..|text| - 5] == IntToText(days);
    } else {
      var k := days / 365;
      ParseNatOfNatToText(k);
      assert text[|text| - 5..] == "years";
      assert text[..|text| - 6] == NatToText(k);
    }
  }

  /** A value of an analysis' `inputs`: text, or any other JSON value. */
  datatype InputValue = Text(text: string) | NonText

  /** The parts of an analysis record the views touch. */
  datatype Analysis = Analysis(id: Option<string>, password: string, inputs: map<string, InputValue>)

  /** Python truthiness of the optional password: present and non-empty. */
  predicate Supplied(password: Option<string>) {
    password.Some? && password.value != ""
  }

  datatype ViewError =
    | NotFound            // Http404
    | NotText(key: string) // TypeError concatenating to a non-text input

  /** `get_analysis_or_404`: the record with key `pk`, further filtered by the
      password when one is supplied, and whether the password was checked,
      which is what grants editing. */
  function GetAnalysisOr404(store: map<string, Analysis>, pk: string, password: Option<string>)
    : (r: Result<(Analysis, bool), ViewError>)
    ensures r.Ok? <==> pk in store && (Supplied(password) ==> store[pk].password == password.value)
    ensures r.Err? ==> r.error == NotFound
    ensures r.Ok? ==> r.value.0 == store[pk]
    ensures r.Ok? ==> (r.value.1 <==> Supplied(password))
    // editing is granted only against the record's own password
    ensures r.Ok? && r.value.1 ==> password == Some(r.value.0.password)
  {
    if pk !in store then Err(NotFound)
    else if Supplied(password) then
      if store[pk].password == password.value then Ok((store[pk], true)) else Err(NotFound)
    else
      Ok((store[pk], false))
  }

  /** `inputs.get(key, "") + suffix`. */
  function AppendToInput(inputs: map<string, InputValue>, key: string, suffix: string)
    : (r: Result<map<string, InputValue>, ViewError>)
    ensures r.Ok? <==> key !in inputs || inputs[key].Text?
    ensures r.Err? ==> r.error == NotText(key)
    ensures r.Ok? ==> r.value.Keys == inputs.Keys + {key}
    ensures r.Ok? ==> r.value[key] == Text((if key in inputs then inputs[key].text else "") + suffix)
    ensures r.Ok? ==> forall k :: k in inputs && k != key ==> r.value[k] == inputs[k]
  {
    if key !in inputs then
      assert "" + suffix == suffix;
      Ok(inputs[key := Text(suffix)])
    else match inputs[key]
      case Text(t) => Ok(inputs[key := Text(t + suffix)])
      case NonText => Err(NotText(key))
  }

  /** The record `AnalysisClone` saves as a new analysis. */
  function CloneAnalysis(store: map<string, Analysis>, pk: string): (r: Result<Analysis, ViewError>)
    ensures pk !in store ==> r == Err(NotFound)
    ensures r.Ok? <==>
              && pk in store
              && ("analysis_name" !in store[pk].inputs || store[pk].inputs["analysis_name"].Text?)
              && ("analysis_description" !in store[pk].inputs || store[pk].inputs["analysis_description"].Text?)
    ensures r.Ok? ==> r.value.id.None? && r.value.password == store[pk].password
    ensures r.Ok? ==> r.value.inputs.Keys == store[pk].inputs.Keys + {"analysis_name", "analysis_description"}
    ensures r.Ok? ==> forall k :: k in store[pk].inputs && k != "analysis_name" && k != "analysis_description"
                                 ==> r.value.inputs[k] == store[pk].inputs[k]
    ensures r.Ok? ==> r.value.inputs["analysis_name"].Text? && HasSuffix(r.value.inputs["analysis_name"].text, " (clone)")
    ensures r.Ok? ==> r.value.inputs["analysis_description"].Text?
                      && HasSuffix(r.value.inputs["analysis_description"].text, " (cloned from " + pk + ")")
  {
    var (original, _) :- GetAnalysisOr404(store, pk, None);
    var named :- AppendToInput(original.inputs, "analysis_name", " (clone)");
    var described :- AppendToInput(named, "analysis_description", " (cloned from " + pk + ")");
    Ok(original.(id := None, inputs := described))
  }

  /** Removing the suffixes from a clone's name and description gives back
      the original's (an absent one reads as empty). */
  lemma CloneKeepsOriginalText(store: map<string, Analysis>, pk: string)
    requires CloneAnalysis(store, pk).Ok?
    ensures var name := CloneAnalysis(store, pk).value.inputs["analysis_name"].text;
            name[..|name| - |" (clone)"|] ==
              if "analysis_name" in store[pk].inputs then store[pk].inputs["analysis_name"].text else ""
    ensures var description := CloneAnalysis(store, pk).value.inputs["analysis_description"].text;
            description[..|description| - |" (cloned from " + pk + ")"|] ==
              if "analysis_description" in store[pk].inputs then store[pk].inputs["analysis_description"].text else ""
  {
    var inputs := store[pk].inputs;
    var name0 := if "analysis_name" in inputs then inputs["analysis_name"].text else "";
    var description0 := if "analysis_description" in inputs then inputs["analysis_description"].text else "";
    var named := AppendToInput(inputs, "analysis_name", " (clone)").value;
    assert named["analysis_name"] == Text(name0 + " (clone)");
    assert "analysis_description" in inputs ==> named["analysis_description"] == inputs["analysis_description"];
    var suffix := " (cloned from " + pk + ")";
    assert (name0 + " (clone)")[..|name0|] == name0;
    assert (description0 + suffix)[..|description0|] == description0;
  }
}
